=== FILE: README.md ===
# Semantic highlighting of Cilk/C++ tokens — a Dafny model

The highlighter is a post-pass over the lines of themed tokens that a TextMate-grammar
tokenizer has already produced, each token with an *explanation*: the spans of its text
and the scopes the grammar gave each span. The pass does not tokenize anything itself.
It walks every line, then every token, then every explained span (a *subtoken*), and
keeps three pieces of state:

- a pushdown stack of semantic states (`source`, `vardef`, `typedef`, `template`, …);
- a symbol table of learned type names, plus a stack of template-parameter lists;
- a per-token cursor that can step back to look at the same subtoken again.

Where the state says a subtoken declares something, the pass re-emits that subtoken as a
token of its own. The new token carries an extra `<name>.sema` scope, and its colour is
looked up again in the theme.

The modules, in the order the program builds on them (`Wrappers` in `strings.dfy` only defines `Option`):

| module | what it holds |
|---|---|
| `Strings` (`strings.dfy`) | the JavaScript string operations used: `trim`, `split(' ')[0]`, `indexOf` and the clamping `substring` |
| `Matcher` (`matcher.dfy`) | `matchesOne`, `matchesAny`, `matches` and `explainThemeScope`, over a theme given as a list of rules |
| `Tokens` (`tokens.dfy`) | themed tokens and explained subtokens, `getExplainedSubtokens`, `createNewThemedToken`, `splitTokenAtIndex`, `pushNewToken` |
| `ScopeStacks` (`symbols.dfy`) | the `SemanticScope` states and `ScopeStack`, kept as an array plus a separate depth counter as the source does |
| `Symbols` (`symbols.dfy`) | `isKnownType`, `getKnownType`, `learnType`, `maybePopTemplate`, `splitTypeToken` |
| `Annotator` (`annotator.dfy`) | the `SemanticHighlight` state machine (see below) |
| `AnnotatorFacts` (`annotator_facts.dfy`) | which block handles a subtoken in each state, and what the main declarations turn into |

How `Annotator` models `SemanticHighlight`:

- Each `if (scopeStack.top() === …)` block of the subtoken loop is a function from the
  pass state (`Annot`) and the per-token cursor (`Cursor`) to a `Flow`. A `Flow` is one of:
  - `Continue`: the source's `continue`;
  - `Fall`: the source falls through to the next block;
  - `Crash`: the source throws a TypeError.
- The blocks run in the source's fixed order (`RunBlocks` over `EarlyOrder`, then `LateBlocks`).
- `Step` is one iteration of the subtoken loop.
- `TokenLoop` repeats `Step` under a fuel bound.
- `HighlightToken`, `HighlightLine`, `HighlightLines` and `SemanticHighlight` are the three
  nested loops and their output.

## Model

| member | source | states |
|---|---|---|
| Strings.IndexOf | src/components/semantichighlight.ts:335 | `indexOf` returns the first position where the pattern occurs, or -1 when it occurs nowhere |
| Strings.TrimRemovesOnlySpace | src/components/semantichighlight.ts:253 | `trim` keeps a slice that has no white space at either end, and everything it drops is white space |
| Strings.FirstWordPosition | src/components/semantichighlight.ts:333-335 | the first word of the trimmed text sits right after the leading white space, and `indexOf` finds it there first |
| Matcher.MatchesOneIsDottedPrefix | src/components/semantichighlight.ts:63-69 | a selector matches a scope exactly when the scope equals it or is it followed by `.` and further segments |
| Matcher.MatchesOneTransitive | src/components/semantichighlight.ts:63-69 | the selector order is transitive: a selector matching a scope matches every scope that scope matches |
| Matcher.MatchesOneAntisymmetric | src/components/semantichighlight.ts:63-69 | two scopes that match each other are equal |
| Matcher.MatchesSomeScopeExists | src/components/semantichighlight.ts:81-89 | scanning the scopes from the most specific down succeeds exactly when the selector matches one of them |
| Matcher.MatchesAnyExists | src/components/semantichighlight.ts:77-91 | `matchesAny` holds exactly when some (selector, scope) pair matches |
| Matcher.MatchParentsIffEmbedding | src/components/semantichighlight.ts:103-114 | the greedy right-to-left scan of parent qualifiers succeeds exactly when the qualifiers match an ordered, not necessarily contiguous, subsequence of the actual parents |
| Matcher.MatchesWithoutParents | src/components/semantichighlight.ts:94-115 | with no parent qualifiers, `matches` is `matchesOne` of the leaf |
| Matcher.ExplainRulesPositions | src/components/semantichighlight.ts:125-149 | the rules found are exactly the applying rules of the list, each once, at strictly increasing positions |
| Matcher.ExplainThemeScopeIsOrderedFilter | src/components/semantichighlight.ts:118-151 | `explainThemeScope` is the in-order filter of the theme's rules that apply: each applying rule once, rules without a scope never |
| Matcher.LastExplainedIsLastMatching | src/components/semantichighlight.ts:118-151 | the last rule found is the applying rule declared last in the theme |
| Matcher.NothingExplainedIffNoMatch | src/components/semantichighlight.ts:118-151 | no rule is found exactly when no theme rule applies |
| Tokens.GetExplainedSubtokens | src/components/semantichighlight.ts:18-31 | a token without explanation has no subtokens; otherwise there is one subtoken per explanation, with its text, its scope names and its index |
| Tokens.SubtokensCoverExplanations | src/components/semantichighlight.ts:18-31 | the subtokens together cover exactly the text of the token's explanations |
| Tokens.PrefixLength | src/components/semantichighlight.ts:166-170 | the summed lengths of the first `n` explanations are the length of the text they cover |
| Tokens.CreateNewThemedToken | src/components/semantichighlight.ts:160-195 | the rebuilt token keeps the subtoken's text and starts where its explanation starts; with a new scope, that explanation gains `<name>.sema`, and the last found rule restyles the token (no font style counts as 0) |
| Tokens.ThemedStyleIsLastMatchingRule | src/components/semantichighlight.ts:183-191 | a token given a semantic scope keeps its own style when no theme rule applies, and otherwise takes colour and font style from the last applying rule of the theme |
| Tokens.ThemedTokenFromExplanation | src/components/semantichighlight.ts:166-184 | every rebuilt token starts where its subtoken's explanation starts and carries that one explanation, with the same text and the explanation's scopes as a prefix of its own |
| Tokens.SplitTokenAtIndex | src/components/semantichighlight.ts:292-308 | with an empty right part nothing changes; otherwise the list grows by one, the left part stays in place, the right part follows it with the same index and scopes, and every other element is unchanged |
| Tokens.SplitKeepsText | src/components/semantichighlight.ts:298-307 | a split never changes the text the subtoken list covers |
| Tokens.SplitLeftPiece | src/components/semantichighlight.ts:298-306 | after a split at an index within the text, the subtoken holds exactly the text before that index |
| Tokens.SplitPiecesShareOffset | src/components/semantichighlight.ts:304-307 | both pieces of a split subtoken are rebuilt at the same offset, that of the explanation they were cut from |
| Tokens.PushNewToken | src/components/semantichighlight.ts:352-362 | earlier output is kept; the subtokens between the end of the output and `index` are back-filled, rebuilt and unmodified, in order; the given token comes last; the length becomes `index + 1` when nothing at `index` was emitted yet |
| Tokens.PushNewTokenFromExplanations | src/components/semantichighlight.ts:352-362 | when all earlier output is built from the token's explanations, so is the output after a push, back-filled tokens included |
| ScopeStacks.Ancestor | src/components/semantichighlight.ts:236-238 | on a stack whose depth counter agrees with the array, `ancestor(k)` is the entry `k` places below the top, and is defined exactly when the array is more than `k` deep |
| ScopeStacks.InitialStack | src/components/semantichighlight.ts:200-202 | a fresh stack holds `source` only, at depth 0, in step with its array |
| ScopeStacks.PushThenTop | src/components/semantichighlight.ts:208-229 | after a push the pushed scope is on top, the stack stays in step, and the old top is `ancestor(1)` |
| ScopeStacks.PopUndoesPush | src/components/semantichighlight.ts:208-221 | a pop undoes a push, in whatever state the stack is |
| ScopeStacks.AncestorZeroIsTop | src/components/semantichighlight.ts:227-238 | `ancestor(0)` is `top()` |
| ScopeStacks.PopInStep | src/components/semantichighlight.ts:217-221 | a pop keeps `depth == |stack| - 1` exactly when the array was not already empty, and popping the last entry leaves no top |
| Symbols.SearchLevels | src/components/semantichighlight.ts:256-260 | the search over the template-parameter levels finds a name exactly when some level, not only the innermost, holds it |
| Symbols.GetKnownType | src/components/semantichighlight.ts:270-283 | the lookup returns the first word of the trimmed text when it is a learned type or a template parameter, and `''` otherwise |
| Symbols.KnownTypeAgreement | src/components/semantichighlight.ts:248-283 | when the first word is not empty, `isKnownType` holds exactly when `getKnownType` returns that word, and fails exactly when it returns `''` |
| Symbols.LearnType | src/components/semantichighlight.ts:369-374 | learning appends exactly the trimmed name at the end, keeping every earlier entry, even when the name is already there |
| Symbols.LearnWordIsKnown | src/components/semantichighlight.ts:369-374 | after learning a trimmed single word, that word is a known type |
| Symbols.LearnTypeKeepsKnown | src/components/semantichighlight.ts:369-374 | learning never forgets a known type |
| Symbols.MaybePopTemplate | src/components/semantichighlight.ts:381-389 | without `template` on top nothing changes; with it on top of a stack in step, exactly the `template` entry and the innermost parameter list (if any) are removed |
| Symbols.MaybePopTemplateInStep | src/components/semantichighlight.ts:381-389 | when the depth counter agrees with the array, the scope stack shrinks by one exactly when `template` was on top, and so does a non-empty template-parameter stack, and the counter still agrees afterwards (this is not the one-list-per-`template` pairing, which the highlighter does not keep) |
| Symbols.MaybePopTemplateDrifts | src/components/semantichighlight.ts:381-389 | on the stack of `template <typename T> struct A { template <typename> void f() {} ... }` at `f`'s closing brace, popping the inner `template` takes A's only parameter list and leaves A's `template` entry with none |
| Symbols.KnownTypeSplitPoint | src/components/semantichighlight.ts:335-340 | a known type word is found by `indexOf` right after the leading white space, so the "type not found" branch cannot be taken |
| Symbols.SplitTypeToken | src/components/semantichighlight.ts:320-342 | with no known type the list is untouched and the first word is returned; otherwise the subtoken is split right after the type and `''` is returned |
| Symbols.SplitTypeTokenLeavesType | src/components/semantichighlight.ts:320-342 | after a type split the subtoken holds exactly its leading white space and the type word, and the list covers the same text |
| Symbols.SplitTypeTokenKeeps | src/components/semantichighlight.ts:320-342 | a type split keeps the subtoken's scopes, the text the list covers and every explanation index |
| Annotator.DeclarationBlock | src/components/semantichighlight.ts:493-521 | at file, block, struct or template level the block always ends the subtoken's examination, and under any other state it falls through untouched |
| Annotator.TemplateSpecBlock | src/components/semantichighlight.ts:460-491 | inside template arguments the block always ends the examination, possibly stepping back one subtoken; elsewhere it falls through untouched |
| Annotator.TypeNameBlock | src/components/semantichighlight.ts:523-537 | in a template parameter clause the block always ends the examination; elsewhere it falls through untouched |
| Annotator.VarDefBlock | src/components/semantichighlight.ts:624-698 | in a variable declaration the block always ends the examination; elsewhere it falls through untouched |
| Annotator.AssignmentBlock | src/components/semantichighlight.ts:720-746 | outside an assignment it falls through untouched; it can throw only on the first subtoken, after a step back |
| Annotator.CastBlock | src/components/semantichighlight.ts:748-763 | outside a cast it falls through untouched; it can throw only when the cursor already stepped back before the first subtoken |
| Annotator.ArrayIdxBlock | src/components/semantichighlight.ts:765-770 | outside array bounds it falls through untouched; it never ends the examination, and it throws only before the first subtoken |
| Annotator.Brackets | src/components/semantichighlight.ts:772-786 | per case, in the source's order: `{` pushes `block`, `}` pops one entry (two for a namespace's brace), `<` pushes `template`, `>` pops one entry and moves the pending template parameters, if any, onto the template-parameter stack; otherwise nothing changes, and the learned types never do |
| AnnotatorFacts.BracketsTop | src/components/semantichighlight.ts:772-786 | on a stack in step, an opening bracket puts `block`/`template` on top and a closing one uncovers the entry one level down (two for a namespace) |
| AnnotatorFacts.TemplateBracketsRoundTrip | src/components/semantichighlight.ts:778-785 | template angle brackets that reach the bracket fallback restore the scope stack, and any parameters pending in between become one new template-parameter level, which the `template` entry their `>` pops does not take with it |
| AnnotatorFacts.UnnamedClausePushesNoList | src/components/semantichighlight.ts:523-536 | the `>` of a parameter clause that named nothing uncovers the `template` entry and adds no parameter list, then steps back |
| AnnotatorFacts.FunctionBodyCloseTakesInnermostList | src/components/semantichighlight.ts:603-608 | a function body's `}` under a `template` entry pops both and the innermost parameter list, whichever clause pushed it, leaving any `template` entry further down in place |
| Annotator.Examine | src/components/semantichighlight.ts:411-786 | one examination never falls off the end of the chain, keeps the text and scopes of the subtoken list, keeps earlier output, never forgets a learned type, steps back only in the template-argument, `typename`, declaration, assignment and parentheses states, and throws only on the first subtoken under an assignment or parentheses |
| Annotator.Step | src/components/semantichighlight.ts:403-412 | a loop iteration advances the cursor by one or (after a step back) leaves it; a comment subtoken changes nothing but the cursor |
| Annotator.TokenLoop | src/components/semantichighlight.ts:403-786 | a finished subtoken loop only appends to the output, never forgets a learned type, and emits only tokens built from the token's own explanations |
| Annotator.HighlightToken | src/components/semantichighlight.ts:400-794 | a token without explanation is copied through unchanged; otherwise, when the subtoken loop finishes, its non-empty output is the result and empty output gives the token itself, and a throw or an unfinished loop is passed on |
| AnnotatorFacts.CommentsLeaveNoTrace | src/components/semantichighlight.ts:407-412 | comment subtokens are skipped: with only comments ahead, the loop ends with the state and output it started with |
| AnnotatorFacts.CommentTokenCopied | src/components/semantichighlight.ts:788-793 | a token whose explained spans are all comments is copied through as the one unchanged token |
| AnnotatorFacts.ParenCloseEmittedTwice | src/components/semantichighlight.ts:700-745 | with output pending, the `)` closing an initialiser's parentheses is emitted by the parentheses state, which pops without ending the examination, and again by the assignment state: two equal tokens in a row |
| Annotator.HighlightLines | src/components/semantichighlight.ts:396-796 | one output line per input line, and learned types are only ever added |
| Annotator.SemanticHighlight | src/components/semantichighlight.ts:391-802 | the pass returns exactly one output line per input line |
| AnnotatorFacts.NoBlockActs | src/components/semantichighlight.ts:414-718 | under a state no block of a chain is guarded by, the chain falls through without touching anything |
| AnnotatorFacts.SkipIdleBlocks | src/components/semantichighlight.ts:414-718 | blocks not guarded by the current state can be skipped at the front of the chain |
| AnnotatorFacts.ExamineByTop | src/components/semantichighlight.ts:414-698 | dispatch: in each of the `source`, template-argument, `typename`, `typedef`, struct-name, function-head, function-body and declaration states, a non-comment subtoken is handled by that state's block alone, which ends its examination |
| AnnotatorFacts.ExamineOutsideEveryBlock | src/components/semantichighlight.ts:772-786 | in a namespace body or with no state at all, a non-comment subtoken only opens or closes brackets |
| AnnotatorFacts.KnownTypeStartsDeclaration | src/components/semantichighlight.ts:505-510 | at declaration level, text starting with a known type is split after the type, the type is emitted marked `entity.name.type.defined`, and a variable declaration begins |
| AnnotatorFacts.ObjectNameIsVariableName | src/components/semantichighlight.ts:624-659 | examining, under `vardef`, an object name no earlier branch of the declaration claims emits it with its text marked `meta.definition.variable.name`, leaves the state unchanged and moves on |
| AnnotatorFacts.FunctionNameStartsFunctionHead | src/components/semantichighlight.ts:625-632 | in a declaration a function name is emitted marked `entity.name.function.definition`, and the declaration becomes a function head |
| AnnotatorFacts.StructNameIsMarked | src/components/semantichighlight.ts:580-588 | after `struct`, a name not already a type is emitted marked `entity.name.type`, and the struct-name state ends either way |
| AnnotatorFacts.TypedefRemembersName | src/components/semantichighlight.ts:540-541 | in a `typedef`/`using`, the grammar's type name is remembered, trimmed, as the name being introduced |
| AnnotatorFacts.TypedefTerminatorLearnsName | src/components/semantichighlight.ts:550-556 | the `;` ending a `typedef`/`using` learns the introduced name, clears it, and makes it a known type under any template parameters |
| AnnotatorFacts.TemplateClauseDeclaresParameters | src/components/semantichighlight.ts:528-535 | the `>` closing a parameter clause makes every collected parameter name visible in the template-parameter stack, pops `typename` and steps back |
| AnnotatorFacts.AssignmentEndsAtTerminator | src/components/semantichighlight.ts:720-723 | a `;` ends the assignment and steps back so the declaration sees it; on the first subtoken with output pending, the step back reaches index -1 and the source throws |
| AnnotatorFacts.EmittedStyle | src/components/semantichighlight.ts:160-191 | a subtoken emitted with a semantic scope keeps its text; its colour and font style are the last matching theme rule's, or the token's own when no rule matches |
| AnnotatorFacts.AssignmentTerminatorEmittedTwice | src/components/semantichighlight.ts:720-745 | with output pending, the `;` ending an initialiser is emitted by the assignment state after its step back, and again by the declaration when the loop returns to it: two equal tokens in a row |

## Left out
- Symbols.MaybePopTemplate: the model states no invariant pairing each `template` entry with its own parameter list, because `semantichighlight.ts` does not keep one. A clause that names no parameter pushes no list (`AnnotatorFacts.UnnamedClausePushesNoList`), yet its `template` entry's pop still takes the innermost list (`AnnotatorFacts.FunctionBodyCloseTakesInnermostList`, `Symbols.MaybePopTemplateDrifts`), so an enclosing template's parameters stop being known types. The other way round, pending parameters that reach the bracket fallback's `>` become a list that no `template` entry owns (`AnnotatorFacts.TemplateBracketsRoundTrip`). The model follows the code in both cases.

- I/O: every `console.log` is left out. The final "Unpopped scope stack!" check becomes the `unpopped` flag of `Highlighted`, which is `depth != 0`.
- The theme's regular-expression splitting of selectors (`split(/,/)` and `split(/ /)`): each rule's selectors are given already split, as `Selector(parents, leaf)` values.
- Aliasing: the source pushes the `.sema` scope into the original token's shared explanation `scopes` array. Here explanations are immutable values, and the new token's explanation carries the appended scope.
- The back-reference from a subtoken to its token: all subtokens of one list belong to the token being highlighted, which the functions take explicitly.
- Stack underflow is modelled as JavaScript behaves: `pop` on an empty array leaves it empty but still decrements `depth`, and `top()`/`ancestor()` outside the array are `None` (undefined). No anomaly is recorded.
- The `'type'` state (`TypeScope`) is declared but never pushed, as in the source.
- Font styles are integers throughout. In `semantichighlight.ts` a theme rule's `fontStyle` is a string that is copied as-is into the token's numeric field, and only a missing or empty value becomes 0. The model encodes the rule's style as an optional integer (missing or 0 gives 0) and does not keep this mix of strings and numbers.
- `IsSpace` covers the white space and line terminators JavaScript's `trim` removes, by code point; no other Unicode processing is modelled.
- Annotator.TokenLoop: the subtoken loop has no termination argument in the source (the cursor steps back after pops). Each token's loop gets `fuel` iterations, and running out gives `OutOfFuel`.
- The TypeError thrown by `pushNewToken` at index -1 is the `Crashed` outcome; what the caller does with the exception is not modelled.
- Annotator.SemanticHighlight: it does not state that the text is preserved, because `semantichighlight.ts` does not preserve it. Once output was emitted for a token, subtokens are only written out when a branch pushes them or a later push back-fills them (`pushNewToken`, lines 352-361). Branches that `continue` without pushing include (apart from their known-type cases): the template block's `typename` branch (435-437), the declaration branch (493-521), `typename` (523-537), `struct.name` (580-588, when the grammar already called the name a type), `function.body` (603-622), `cast` (748-763, except its `<` and `>`), and the structure and block closers (414-433). Any such subtoken, and any comment, after the token's last push is lost; one before it is back-filled unchanged. Some subtokens are emitted twice instead, for example the `;` that ends an initialiser (`AnnotatorFacts.AssignmentTerminatorEmittedTwice`) and the `)` that closes an initialiser's parentheses (`AnnotatorFacts.ParenCloseEmittedTwice`). The lists here are examples, not a complete account.
- Offsets, lengths, `indexOf` and `substring` count code points, while JavaScript counts UTF-16 code units. Text outside the Basic Multilingual Plane therefore gives the same emitted text but smaller `offset` values than the source would.
- Annotator.HighlightLine: it states `|out| >= |line|` rather than the exact token-by-token correspondence.
- `src/components/my-syntax-highlighting.ts` (an older copy of the same logic tied to a module-level highlighter), `src/components/cilkbook-highlight.ts` (grammar and theme loading, HTML rendering) and the tests are not part of this model; neither are the site's pages.

=== FILE: annotator.dfy ===
/** The semantic annotator of `semantichighlight.ts`: a pass over already-tokenized lines that tracks declarations
    with a pushdown automaton and reclassifies subtokens with extra `.sema` scopes. */
module Annotator {
  import opened Wrappers
  import opened Strings
  import opened Matcher
  import opened Tokens
  import opened ScopeStacks
  import opened Symbols

  /** The state that lives for one whole pass: the scope stack, the learned types, the
      template-parameter stack, the parameters of the template clause being read, and
      the name a `typedef`/`using` statement is about to introduce. */
  datatype Annot = Annot(stack: ScopeStack, learned: seq<string>, templateParameters: seq<seq<string>>,
                         newTemplateParameters: seq<string>, newType: string)

  const Fresh: Annot := Annot(Initial, [], [], [], "")

  /** The state that lives for one token: its subtoken list (which splits extend), the
      cursor into it, and the tokens emitted for it so far. */
  datatype Cursor = Cursor(subs: seq<Subtoken>, idx: int, out: seq<Token>)

  /** The token whose subtokens are being examined, and the theme used to restyle them. */
  datatype Ctx = Ctx(owner: Token, theme: Theme)

  /** What one block of the dispatch chain decided: move on to the next subtoken, let the
      later blocks look at this one too, or fail the way the TypeScript highlighter throws a TypeError. */
  datatype Flow = Continue(a: Annot, c: Cursor) | Fall(a: Annot, c: Cursor) | Crash

  /** The outcome of running the annotator: a value, a thrown TypeError, or a cursor loop
      that did not finish within the given number of steps. */
  datatype Run<T> = Done(value: T) | Crashed | OutOfFuel

  // Scope names the annotator appends.
  const DefinedType := "entity.name.type.defined"
  const EntityType := "entity.name.type"
  const FunctionDefinition := "entity.name.function.definition"
  const VariableName := "meta.definition.variable.name"
  const PointerModifier := "storage.modifier.pointer"
  const ReferenceModifier := "storage.modifier.reference"
  const AngleBegin := "punctuation.section.angle-brackets.begin.template"
  const AngleEnd := "punctuation.section.angle-brackets.end.template"
  const BlockBegin := "punctuation.section.block.begin"
  const BlockEnd := "punctuation.section.block.end"
  const NamespaceEnd := "punctuation.section.block.end.bracket.curly.namespace"

  // Scopes the grammar puts on the tail of a declaration.
  const BodyScopes := ["meta.body.function", "meta.body.struct", "meta.tail.struct", "meta.body.class", "meta.block", "meta.parens", "source"]

  predicate Extends<T(==)>(x: seq<T>, y: seq<T>) {
    |x| <= |y| && y[..|x|] == x
  }

  /** The subtoken at `pos` is valid and `idx` is at it or one before it. */
  predicate Ready(ctx: Ctx, c: Cursor, pos: nat) {
    pos < |c.subs| && pos - 1 <= c.idx <= pos && WellIndexed(ctx.owner, c.subs) && ctx.owner.explanation.Some?
  }

  /** `c2` follows from `c`: the subtoken at `pos` still exists with the same scopes, the
      list covers the same text, earlier output is kept, and new output is built from the
      token's explanations. */
  predicate Kept(ctx: Ctx, pos: nat, c: Cursor, c2: Cursor) {
    && pos < |c.subs| && pos < |c2.subs|
    && WellIndexed(ctx.owner, c2.subs)
    && Text(c2.subs) == Text(c.subs)
    && c2.subs[pos].scopes == c.subs[pos].scopes
    && Extends(c.out, c2.out)
    && (AllFromExplanations(ctx.owner, c.out) ==> AllFromExplanations(ctx.owner, c2.out))
  }

  /** A non-crashing flow keeps the cursor and never forgets a learned type. */
  predicate FlowKept(ctx: Ctx, pos: nat, a: Annot, c: Cursor, f: Flow) {
    f.Crash? || (Kept(ctx, pos, c, f.c) && Extends(a.learned, f.a.learned))
  }

  lemma KeptTrans(ctx: Ctx, pos: nat, c1: Cursor, c2: Cursor, c3: Cursor)
    requires Kept(ctx, pos, c1, c2) && Kept(ctx, pos, c2, c3)
    ensures Kept(ctx, pos, c1, c3)
  {
    assert c3.out[..|c1.out|] == c3.out[..|c2.out|][..|c1.out|];
  }

  // ---------------------------------------------------------------------------
  // Queries on the current subtoken

  function Scopes(c: Cursor, pos: nat): seq<string>
    requires pos < |c.subs|
  {
    c.subs[pos].scopes
  }

  function Content(c: Cursor, pos: nat): string
    requires pos < |c.subs|
  {
    c.subs[pos].content
  }

  /** JavaScript's `scopes.slice(-1)`: the most specific scope alone, if any. */
  function LastScope(scopes: seq<string>): (r: seq<string>)
    ensures |scopes| == 0 ==> r == []
    ensures |scopes| > 0 ==> r == [scopes[|scopes| - 1]]
  {
    if |scopes| == 0 then [] else [scopes[|scopes| - 1]]
  }

  predicate Has(c: Cursor, pos: nat, selectors: seq<string>)
    requires pos < |c.subs|
  {
    MatchesAny(selectors, Scopes(c, pos))
  }

  predicate LastHas(c: Cursor, pos: nat, selectors: seq<string>)
    requires pos < |c.subs|
  {
    MatchesAny(selectors, LastScope(Scopes(c, pos)))
  }

  predicate Known(a: Annot, c: Cursor, pos: nat)
    requires pos < |c.subs|
  {
    IsKnownType(Content(c, pos), a.learned, a.templateParameters)
  }

  predicate TopIs(a: Annot, s: SemanticScope) {
    Top(a.stack) == Some(s)
  }

  // ---------------------------------------------------------------------------
  // State updates

  function PushA(a: Annot, s: SemanticScope): Annot {
    a.(stack := Push(a.stack, s))
  }

  function PopA(a: Annot): Annot {
    a.(stack := Pop(a.stack))
  }

  function MaybePopTemplateA(a: Annot): Annot {
    var (s, tp) := MaybePopTemplate(a.stack, a.templateParameters);
    a.(stack := s, templateParameters := tp)
  }

  /** Close a template parameter clause: a non-empty pending list becomes a new level of
      the template-parameter stack. */
  function FlushTemplateParameters(a: Annot): (r: Annot)
    ensures |a.newTemplateParameters| > 0 ==>
      r == a.(templateParameters := a.templateParameters + [a.newTemplateParameters], newTemplateParameters := [])
    ensures |a.newTemplateParameters| == 0 ==> r == a
  {
    if |a.newTemplateParameters| > 0 then
      a.(templateParameters := a.templateParameters + [a.newTemplateParameters], newTemplateParameters := [])
    else a
  }

  /** Close a block: pop it, and pop once more for the brace that closes a namespace. */
  function CloseBlock(a: Annot, c: Cursor, pos: nat): Annot
    requires pos < |c.subs|
  {
    var a1 := PopA(a);
    if Has(c, pos, [NamespaceEnd]) then PopA(a1) else a1
  }

  /** Learn a type name. */
  function LearnA(a: Annot, name: string): (r: Annot)
    ensures Extends(a.learned, r.learned)
  {
    a.(learned := LearnType(name, a.learned))
  }

  function Flowing(a: Annot, c: Cursor, cont: bool): (r: Flow)
    ensures !r.Crash? && r.a == a && r.c == c && (r.Continue? <==> cont)
  {
    if cont then Continue(a, c) else Fall(a, c)
  }

  /** Emit the subtoken at `pos` as a new token, with the semantic scope `name` when one
      is given; the token goes in at the cursor's index, after any skipped subtokens.
      There is nothing to push at index -1: the TypeScript `pushNewToken` throws a TypeError there. */
  function EmitC(ctx: Ctx, c: Cursor, pos: nat, name: Option<string>): (r: Option<Cursor>)
    requires pos < |c.subs| && c.idx <= pos && WellIndexed(ctx.owner, c.subs) && ctx.owner.explanation.Some?
    ensures r.None? <==> c.idx < 0
    ensures r.Some? ==> (AllFromExplanations(ctx.owner, c.out) ==> AllFromExplanations(ctx.owner, r.value.out))
    ensures r.Some? ==> r.value.subs == c.subs && r.value.idx == c.idx && Extends(c.out, r.value.out)
    ensures r.Some? ==> (|r.value.out| > 0 &&
      r.value.out[|r.value.out| - 1] ==
        CreateNewThemedToken(ctx.owner, c.subs[pos], if name.Some? then Some(NewScope(name.value, ctx.theme)) else None))
  {
    if c.idx < 0 then None
    else
      var ns := if name.Some? then Some(NewScope(name.value, ctx.theme)) else None;
      var t := CreateNewThemedToken(ctx.owner, c.subs[pos], ns);
      ThemedTokenFromExplanation(ctx.owner, c.subs[pos], ns);
      PushNewTokenFromExplanations(ctx.owner, c.out, t, c.idx, c.subs);
      Some(c.(out := PushNewToken(ctx.owner, c.out, t, c.idx, c.subs)))
  }

  function Emit(ctx: Ctx, a: Annot, c: Cursor, pos: nat, name: Option<string>, cont: bool): (r: Flow)
    requires pos < |c.subs| && c.idx <= pos && WellIndexed(ctx.owner, c.subs) && ctx.owner.explanation.Some?
    ensures r.Crash? <==> c.idx < 0
    ensures !r.Crash? ==> r.a == a && r.c.subs == c.subs && r.c.idx == c.idx && Extends(c.out, r.c.out)
    ensures !r.Crash? ==> (r.Continue? <==> cont)
    ensures !r.Crash? ==> Kept(ctx, pos, c, r.c)
  {
    match EmitC(ctx, c, pos, name)
    case None => Crash
    case Some(c2) => Flowing(a, c2, cont)
  }

  /** Emit the subtoken unchanged, but only once some token of this token was emitted. */
  function EmitIfStarted(ctx: Ctx, a: Annot, c: Cursor, pos: nat, cont: bool): (r: Flow)
    requires pos < |c.subs| && c.idx <= pos && WellIndexed(ctx.owner, c.subs) && ctx.owner.explanation.Some?
    ensures r.Crash? <==> c.idx < 0 && |c.out| != 0
    ensures !r.Crash? ==> r.a == a && r.c.subs == c.subs && r.c.idx == c.idx && Extends(c.out, r.c.out)
    ensures !r.Crash? ==> (r.Continue? <==> cont)
    ensures |c.out| == 0 ==> r == Flowing(a, c, cont)
    ensures !r.Crash? ==> Kept(ctx, pos, c, r.c)
  {
    if |c.out| == 0 then Flowing(a, c, cont) else Emit(ctx, a, c, pos, None, cont)
  }

  /** Split a leading known type off the subtoken at `pos`; also returns `splitTypeToken`'s
      result. */
  function SplitTypeC(ctx: Ctx, a: Annot, c: Cursor, pos: nat): (r: (Cursor, Option<string>))
    requires pos < |c.subs| && WellIndexed(ctx.owner, c.subs)
    ensures r.0.idx == c.idx && r.0.out == c.out
    ensures Kept(ctx, pos, c, r.0)
    ensures r.0.subs == SplitTypeToken(c.subs, pos, a.learned, a.templateParameters).subs
    ensures r.1 == SplitTypeToken(c.subs, pos, a.learned, a.templateParameters).unsplit
  {
    var ts := SplitTypeToken(c.subs, pos, a.learned, a.templateParameters);
    SplitTypeTokenKeeps(ctx.owner, c.subs, pos, a.learned, a.templateParameters);
    (c.(subs := ts.subs), ts.unsplit)
  }

  /** Split at a character index. */
  function SplitAtC(ctx: Ctx, c: Cursor, pos: nat, splitIndex: int): (r: Cursor)
    requires pos < |c.subs| && WellIndexed(ctx.owner, c.subs)
    ensures r.idx == c.idx && r.out == c.out
    ensures Kept(ctx, pos, c, r)
    ensures r.subs == SplitTokenAtIndex(c.subs, pos, splitIndex)
  {
    SplitKeepsText(c.subs, pos, splitIndex);
    SplitKeepsIndices(ctx.owner, c.subs, pos, splitIndex);
    c.(subs := SplitTokenAtIndex(c.subs, pos, splitIndex))
  }

  /** Split off a known type and emit the type as a defined type. */
  function EmitKnownType(ctx: Ctx, a: Annot, c: Cursor, pos: nat): (r: Flow)
    requires pos < |c.subs| && 0 <= c.idx <= pos && WellIndexed(ctx.owner, c.subs) && ctx.owner.explanation.Some?
    ensures r.Continue? && r.a == a && r.c.idx == c.idx && Kept(ctx, pos, c, r.c)
  {
    var (c1, _) := SplitTypeC(ctx, a, c, pos);
    Emit(ctx, a, c1, pos, Some(DefinedType), true)
  }

  // ---------------------------------------------------------------------------
  // The dispatch chain. Each block looks at the state on top of the stack; blocks that
  // do not apply let the subtoken fall through to the next one.

  /** Blocks before the assignment block never crash and leave a falling cursor in place. */
  predicate EarlyBlock(ctx: Ctx, pos: nat, a: Annot, c: Cursor, r: Flow) {
    && !r.Crash?
    && FlowKept(ctx, pos, a, c, r)
    && (r.Fall? ==> r.c.idx == pos)
    && (r.Continue? ==> pos - 1 <= r.c.idx <= pos)
    && (r.Fall? && !TopIs(a, Parens) ==> r.a.stack == a.stack)
    && (r.Continue? && r.c.idx != pos ==> Top(a.stack) in {Some(TemplateSpec), Some(TypeName), Some(VarDef)})
  }

  /** Inside a struct or class body: a closing brace ends it, `struct` starts a nested one. */
  function StructureBlock(ctx: Ctx, a: Annot, c: Cursor, pos: nat): (r: Flow)
    requires Ready(ctx, c, pos) && c.idx == pos
    ensures EarlyBlock(ctx, pos, a, c, r)
    ensures !TopIs(a, Structure) ==> r == Fall(a, c)
  {
    if !TopIs(a, Structure) then Fall(a, c)
    else if Has(c, pos, ["punctuation.section.block.end.bracket.curly"]) then
      Continue(MaybePopTemplateA(PopA(a)), c)
    else if Has(c, pos, ["storage.type.struct"]) then
      Continue(PushA(PushA(a, VarDef), StructName), c)
    else Fall(a, c)
  }

  /** Inside a block: its end pops it. */
  function BlockBlock(ctx: Ctx, a: Annot, c: Cursor, pos: nat): (r: Flow)
    requires Ready(ctx, c, pos) && c.idx == pos
    ensures EarlyBlock(ctx, pos, a, c, r)
    ensures !TopIs(a, Block) ==> r == Fall(a, c)
  {
    if TopIs(a, Block) && Has(c, pos, ["punctuation.section.block.end"]) then
      Continue(CloseBlock(a, c, pos), c)
    else Fall(a, c)
  }

  /** Inside a template parameter clause or the declaration it introduces. */
  function TemplateBlock(ctx: Ctx, a: Annot, c: Cursor, pos: nat): (r: Flow)
    requires Ready(ctx, c, pos) && c.idx == pos
    ensures EarlyBlock(ctx, pos, a, c, r)
    ensures !TopIs(a, Template) ==> r == Fall(a, c)
    ensures r.Fall? ==> r.a.stack == a.stack
  {
    if !TopIs(a, Template) then Fall(a, c)
    else if Has(c, pos, ["storage.type.template.argument.typename"]) then
      Continue(PushA(a, TypeName), c)
    else if Has(c, pos, [AngleEnd]) then
      EmitIfStarted(ctx, FlushTemplateParameters(a), c, pos, false)
    else if Known(a, c, pos) then
      EmitKnownType(ctx, a, c, pos)
    else EmitIfStarted(ctx, a, c, pos, false)
  }

  /** A subtoken whose examination ends here: a continuing flow that keeps the cursor. */
  predicate Continues(ctx: Ctx, pos: nat, a: Annot, c: Cursor, r: Flow) {
    r.Continue? && FlowKept(ctx, pos, a, c, r) && pos - 1 <= r.c.idx <= pos
  }

  /** Inside template arguments: `>` closes them and the subtoken is looked at again. */
  function TemplateSpecBlock(ctx: Ctx, a: Annot, c: Cursor, pos: nat): (r: Flow)
    requires Ready(ctx, c, pos) && c.idx == pos
    ensures EarlyBlock(ctx, pos, a, c, r)
    ensures !TopIs(a, TemplateSpec) ==> r == Fall(a, c)
    ensures TopIs(a, TemplateSpec) ==> r.Continue?
  {
    if !TopIs(a, TemplateSpec) then Fall(a, c)
    else if Trim(Content(c, pos)) == ">" then
      Continue(PopA(a), c.(idx := c.idx - 1))
    else TemplateArgument(ctx, a, c, pos)
  }

  /** A template argument: a known type, a pointer or reference mark, or anything else. */
  function TemplateArgument(ctx: Ctx, a: Annot, c: Cursor, pos: nat): (r: Flow)
    requires Ready(ctx, c, pos) && c.idx == pos
    ensures r.Continue? && r.a == a && r.c.idx == pos && Kept(ctx, pos, c, r.c)
  {
    if Known(a, c, pos) then
      EmitKnownType(ctx, a, c, pos)
    else if Trim(Content(c, pos)) == "*" then
      Emit(ctx, a, c, pos, Some(PointerModifier), true)
    else if Trim(Content(c, pos)) == "&" then
      Emit(ctx, a, c, pos, Some(ReferenceModifier), true)
    else EmitIfStarted(ctx, a, c, pos, true)
  }

  /** At file, block, struct or template level: recognise the start of a declaration. */
  function DeclarationBlock(ctx: Ctx, a: Annot, c: Cursor, pos: nat): (r: Flow)
    requires Ready(ctx, c, pos) && c.idx == pos
    ensures EarlyBlock(ctx, pos, a, c, r)
    ensures Top(a.stack) !in {Some(Source), Some(Block), Some(Structure), Some(Template)} ==> r == Fall(a, c)
    ensures Top(a.stack) in {Some(Source), Some(Block), Some(Structure), Some(Template)} ==> r.Continue?
  {
    if Top(a.stack) !in {Some(Source), Some(Block), Some(Structure), Some(Template)} then Fall(a, c)
    else if Has(c, pos, ["meta.function.definition"]) then Continue(PushA(a, FunctionHead), c)
    else if Has(c, pos, ["storage.type.namespace.definition"]) then Continue(PushA(a, Namespace), c)
    else if Has(c, pos, ["storage.type.template"]) then Continue(PushA(a, Template), c)
    else if Has(c, pos, ["entity.name.scope-resolution"]) then Continue(a, c)
    else if Has(c, pos, ["storage.type.struct"]) then Continue(PushA(PushA(a, VarDef), StructName), c)
    else if Known(a, c, pos) then
      var f := EmitKnownType(ctx, a, c, pos);
      Continue(PushA(f.a, VarDef), f.c)
    else if Has(c, pos, ["storage.type.built-in"]) then Continue(PushA(a, VarDef), c)
    else if Has(c, pos, ["keyword.other.using", "keyword.other.typedef"]) then Continue(PushA(a, TypeDef), c)
    else if Has(c, pos, ["punctuation.section.block.begin.bracket.curly.struct", "punctuation.section.block.begin.bracket.curly.class"]) then
      Continue(PushA(a, Structure), c)
    else if Has(c, pos, ["entity.name.type.alias", "entity.name.type.class"]) then
      Continue(LearnA(a, Content(c, pos)), c)
    else Continue(a, c)
  }

  /** Inside `typename`: collect parameter names until `,` or the closing `>`. */
  function TypeNameBlock(ctx: Ctx, a: Annot, c: Cursor, pos: nat): (r: Flow)
    requires Ready(ctx, c, pos) && c.idx == pos
    ensures EarlyBlock(ctx, pos, a, c, r)
    ensures !TopIs(a, TypeName) ==> r == Fall(a, c)
    ensures TopIs(a, TypeName) ==> r.Continue?
  {
    if !TopIs(a, TypeName) then Fall(a, c)
    else if Has(c, pos, ["entity.name.type.template"]) then
      Continue(a.(newTemplateParameters := a.newTemplateParameters + [Content(c, pos)]), c)
    else if Content(c, pos) == "," then Continue(PopA(a), c)
    else if Has(c, pos, [AngleEnd]) then
      Continue(PopA(FlushTemplateParameters(a)), c.(idx := c.idx - 1))
    else Continue(a, c)
  }

  /** Inside a `typedef` or `using` statement: find the name it introduces and learn it
      at the terminating `;`. */
  function TypeDefBlock(ctx: Ctx, a: Annot, c: Cursor, pos: nat): (r: Flow)
    requires Ready(ctx, c, pos) && c.idx == pos
    ensures EarlyBlock(ctx, pos, a, c, r)
    ensures !TopIs(a, TypeDef) ==> r == Fall(a, c)
    ensures TopIs(a, TypeDef) ==> r.Continue?
  {
    if !TopIs(a, TypeDef) then Fall(a, c)
    else if Has(c, pos, [EntityType]) then
      EmitIfStarted(ctx, a.(newType := Trim(Content(c, pos))), c, pos, true)
    else if LastHas(c, pos, BodyScopes) then
      var (c1, unsplit) := SplitTypeC(ctx, a, c, pos);
      var a1 := if unsplit.Some? && unsplit.value != "" then a.(newType := unsplit.value) else a;
      Emit(ctx, a1, c1, pos, Some(DefinedType), true)
    else if Has(c, pos, ["punctuation.terminator.statement"]) then
      var a1 := if a.newType != "" then LearnA(a, a.newType).(newType := "") else a;
      EmitIfStarted(ctx, MaybePopTemplateA(PopA(a1)), c, pos, true)
    else if Has(c, pos, ["keyword.operator.assignment"]) then
      EmitIfStarted(ctx, PushA(a, AssignmentRhs), c, pos, true)
    else if Has(c, pos, ["storage.type.struct"]) then
      EmitIfStarted(ctx, PushA(a, StructName), c, pos, true)
    else if Has(c, pos, ["punctuation.section.block.begin.bracket.curly"]) then
      EmitIfStarted(ctx, PushA(a, Structure), c, pos, true)
    else if Known(a, c, pos) then
      EmitKnownType(ctx, a, c, pos)
    else if Has(c, pos, ["variable.other.definition.pointer.function"]) then
      Emit(ctx, a, c, pos, Some(DefinedType), true)
    else EmitIfStarted(ctx, a, c, pos, true)
  }

  /** Right after `struct`: the next subtoken is the struct's name. */
  function StructNameBlock(ctx: Ctx, a: Annot, c: Cursor, pos: nat): (r: Flow)
    requires Ready(ctx, c, pos) && c.idx == pos
    ensures EarlyBlock(ctx, pos, a, c, r)
    ensures !TopIs(a, StructName) ==> r == Fall(a, c)
    ensures TopIs(a, StructName) ==> r.Continue?
  {
    if !TopIs(a, StructName) then Fall(a, c)
    else if !Has(c, pos, [EntityType]) then Emit(ctx, PopA(a), c, pos, Some(EntityType), true)
    else Continue(PopA(a), c)
  }

  /** In a function head: `;` ends a prototype, `{` opens the body. */
  function FunctionHeadBlock(ctx: Ctx, a: Annot, c: Cursor, pos: nat): (r: Flow)
    requires Ready(ctx, c, pos) && c.idx == pos
    ensures EarlyBlock(ctx, pos, a, c, r)
    ensures !TopIs(a, FunctionHead) ==> r == Fall(a, c)
    ensures TopIs(a, FunctionHead) ==> r.Continue?
  {
    if !TopIs(a, FunctionHead) then Fall(a, c)
    else
      var a1 :=
        if Has(c, pos, ["punctuation.terminator.statement"]) then MaybePopTemplateA(PopA(a))
        else if Has(c, pos, ["punctuation.section.block.begin.bracket.curly"]) then PushA(PopA(a), FunctionBody)
        else a;
      EmitIfStarted(ctx, a1, c, pos, true)
  }

  /** In a function body: nested braces, casts, and local declarations. */
  function FunctionBodyBlock(ctx: Ctx, a: Annot, c: Cursor, pos: nat): (r: Flow)
    requires Ready(ctx, c, pos) && c.idx == pos
    ensures EarlyBlock(ctx, pos, a, c, r)
    ensures !TopIs(a, FunctionBody) ==> r == Fall(a, c)
    ensures TopIs(a, FunctionBody) ==> r.Continue?
  {
    if !TopIs(a, FunctionBody) then Fall(a, c)
    else if Has(c, pos, ["punctuation.section.block.begin.bracket.curly"]) then Continue(PushA(a, FunctionBody), c)
    else if Has(c, pos, ["punctuation.section.block.end.bracket.curly"]) then Continue(MaybePopTemplateA(PopA(a)), c)
    else if Has(c, pos, ["keyword.operator.cast"]) then Continue(PushA(a, Cast), c)
    else if Has(c, pos, ["entity.name.scope-resolution"]) then Continue(a, c)
    else if Has(c, pos, ["storage.type"]) then Continue(PushA(a, VarDef), c)
    else if Known(a, c, pos) then
      var f := Emit(ctx, a, c, pos, Some(DefinedType), true);
      Continue(PushA(f.a, VarDef), f.c)
    else Continue(a, c)
  }

  /** The tail of a variable declaration in a struct, class or block body: a bit-field
      `:` or an array `[` after the name is split off first. */
  function VarDefTail(ctx: Ctx, a: Annot, c: Cursor, pos: nat): (r: Flow)
    requires Ready(ctx, c, pos) && c.idx == pos
    ensures r.Continue? && r.a == a && r.c.idx == c.idx && Kept(ctx, pos, c, r.c)
  {
    var content := Content(c, pos);
    var colon := IndexOf(content, ":");
    var bracket := IndexOf(content, "[");
    var splitIndex :=
      if !LastHas(c, pos, ["meta.body.struct", "meta.body.class", "meta.block"]) then -1
      else if colon >= 0 then colon
      else bracket;
    var c1 := if splitIndex > 0 then SplitAtC(ctx, c, pos, splitIndex) else c;
    if splitIndex == 0 then Emit(ctx, a, c1, pos, None, true)
    else Emit(ctx, a, c1, pos, Some(VariableName), true)
  }

  /** In a variable declaration: the discovery that it is a function, its end, an
      initialiser, array bounds or template arguments; otherwise its name. */
  function VarDefBlock(ctx: Ctx, a: Annot, c: Cursor, pos: nat): (r: Flow)
    requires Ready(ctx, c, pos) && c.idx == pos
    ensures EarlyBlock(ctx, pos, a, c, r)
    ensures !TopIs(a, VarDef) ==> r == Fall(a, c)
    ensures TopIs(a, VarDef) ==> r.Continue?
  {
    if !TopIs(a, VarDef) then Fall(a, c)
    else if Has(c, pos, ["entity.name.function"]) then
      Emit(ctx, PushA(PopA(a), FunctionHead), c, pos, Some(FunctionDefinition), true)
    else if Has(c, pos, ["meta.function.definition.parameters"]) then
      EmitIfStarted(ctx, PushA(PopA(a), FunctionHead), c, pos, true)
    else if Has(c, pos, ["punctuation.section.block.begin.bracket.curly"]) then
      EmitIfStarted(ctx, PushA(a, Structure), c, pos, true)
    else if Has(c, pos, ["punctuation.terminator.statement"]) then
      EmitIfStarted(ctx, PopA(a), c, pos, true)
    else VarDefPunctuation(ctx, a, c, pos)
  }

  /** Template arguments, and their closing `>` inside a template. */
  function VarDefPunctuation(ctx: Ctx, a: Annot, c: Cursor, pos: nat): (r: Flow)
    requires Ready(ctx, c, pos) && c.idx == pos
    ensures Continues(ctx, pos, a, c, r)
  {
    if Trim(Content(c, pos)) == "<" then
      Emit(ctx, PushA(a, TemplateSpec), c, pos, Some(AngleBegin), true)
    else if Ancestor(a.stack, 1) == Some(Template) && Trim(Content(c, pos)) == ">" then
      Continue(PopA(a), c.(idx := c.idx - 1))
    else VarDefOpening(ctx, a, c, pos)
  }

  /** An initialiser or array bounds. */
  function VarDefOpening(ctx: Ctx, a: Annot, c: Cursor, pos: nat): (r: Flow)
    requires Ready(ctx, c, pos) && c.idx == pos
    ensures r.Continue? && r.c.idx == pos && Extends(a.learned, r.a.learned) && Kept(ctx, pos, c, r.c)
  {
    if Has(c, pos, ["keyword.operator.assignment"]) then
      EmitIfStarted(ctx, PushA(a, AssignmentRhs), c, pos, true)
    else if Has(c, pos, ["punctuation.definition.begin.bracket.square"]) then
      EmitIfStarted(ctx, PushA(a, ArrayIdx), c, pos, true)
    else VarDefName(ctx, a, c, pos)
  }

  /** The declared name, or a pointer or reference mark before it. */
  function VarDefName(ctx: Ctx, a: Annot, c: Cursor, pos: nat): (r: Flow)
    requires Ready(ctx, c, pos) && c.idx == pos
    ensures r.Continue? && r.a == a && r.c.idx == pos && Kept(ctx, pos, c, r.c)
  {
    if LastHas(c, pos, ["variable.other.object", "variable.object"]) then
      Emit(ctx, a, c, pos, Some(VariableName), true)
    else if LastHas(c, pos, BodyScopes) then
      VarDefTail(ctx, a, c, pos)
    else if Content(c, pos) == "*" then
      Emit(ctx, a, c, pos, Some(PointerModifier), true)
    else if Content(c, pos) == "&" then
      Emit(ctx, a, c, pos, Some(ReferenceModifier), true)
    else EmitIfStarted(ctx, a, c, pos, true)
  }

  /** Inside parentheses of an initialiser. */
  function ParensBlock(ctx: Ctx, a: Annot, c: Cursor, pos: nat): (r: Flow)
    requires Ready(ctx, c, pos) && c.idx == pos
    ensures EarlyBlock(ctx, pos, a, c, r)
    ensures !TopIs(a, Parens) ==> r == Fall(a, c)
  {
    if !TopIs(a, Parens) then Fall(a, c)
    else if Has(c, pos, ["punctuation.section.parens.end.bracket.round"]) then
      EmitIfStarted(ctx, PopA(a), c, pos, false)
    else if Known(a, c, pos) then
      EmitKnownType(ctx, a, c, pos)
    else if Trim(Content(c, pos)) == "<" then
      Emit(ctx, PushA(a, TemplateSpec), c, pos, Some(AngleBegin), true)
    else EmitIfStarted(ctx, a, c, pos, false)
  }

  /** On the right-hand side of `=`: `;` and `,` end it (a `;` is then looked at again by
      the declaration it belongs to). */
  function AssignmentBlock(ctx: Ctx, a: Annot, c: Cursor, pos: nat): (r: Flow)
    requires Ready(ctx, c, pos) && c.idx == pos
    ensures FlowKept(ctx, pos, a, c, r)
    ensures !r.Crash? ==> pos - 1 <= r.c.idx <= pos
    ensures !TopIs(a, AssignmentRhs) ==> r == Fall(a, c)
    ensures r.Crash? ==> pos == 0 && TopIs(a, AssignmentRhs)
  {
    if !TopIs(a, AssignmentRhs) then Fall(a, c)
    else if Has(c, pos, ["punctuation.terminator.statement"]) then
      EmitIfStarted(ctx, PopA(a), c.(idx := c.idx - 1), pos, false)
    else if Has(c, pos, ["punctuation.separator.delimiter"]) then
      EmitIfStarted(ctx, PopA(a), c, pos, false)
    else if Has(c, pos, ["punctuation.section.parens.begin"]) then
      EmitIfStarted(ctx, PushA(a, Parens), c, pos, false)
    else if Ancestor(a.stack, 1) == Some(Template) && Trim(Content(c, pos)) == ">" then
      EmitIfStarted(ctx, PopA(a), c.(idx := c.idx - 1), pos, false)
    else if Known(a, c, pos) then
      EmitKnownType(ctx, a, c, pos)
    else if Trim(Content(c, pos)) == "<" then
      Emit(ctx, PushA(a, TemplateSpec), c, pos, Some(AngleBegin), true)
    else EmitIfStarted(ctx, a, c, pos, false)
  }

  /** Inside a cast: its `<` and `>`. */
  function CastBlock(ctx: Ctx, a: Annot, c: Cursor, pos: nat): (r: Flow)
    requires Ready(ctx, c, pos)
    ensures FlowKept(ctx, pos, a, c, r)
    ensures !r.Crash? ==> r.c.idx == c.idx
    ensures r.Crash? ==> c.idx < 0
    ensures !TopIs(a, Cast) ==> r == Fall(a, c)
  {
    if !TopIs(a, Cast) then Fall(a, c)
    else if Trim(Content(c, pos)) == "<" then
      Emit(ctx, PushA(a, TemplateSpec), c, pos, Some(AngleBegin), true)
    else if Trim(Content(c, pos)) == ">" then
      Emit(ctx, MaybePopTemplateA(PopA(a)), c, pos, Some(AngleEnd), true)
    else Continue(a, c)
  }

  /** Inside array brackets: `]` closes them. */
  function ArrayIdxBlock(ctx: Ctx, a: Annot, c: Cursor, pos: nat): (r: Flow)
    requires Ready(ctx, c, pos)
    ensures FlowKept(ctx, pos, a, c, r)
    ensures !r.Crash? ==> r.c.idx == c.idx && r.Fall?
    ensures r.Crash? ==> c.idx < 0
    ensures !TopIs(a, ArrayIdx) ==> r == Fall(a, c)
  {
    if !TopIs(a, ArrayIdx) then Fall(a, c)
    else
      var a1 := if Has(c, pos, ["punctuation.definition.end.bracket.square"]) then PopA(a) else a;
      EmitIfStarted(ctx, a1, c, pos, false)
  }

  /** In every state: generic blocks and template angle brackets open and close. An
      opening brace or `<` pushes `Block` or `Template`; a closing brace pops one entry,
      two when it closes a namespace; a closing `>` pops one entry and moves the pending
      template parameters, if any, onto the template-parameter stack. The first of these
      scopes the subtoken has decides; without any of them nothing changes. */
  function Brackets(a: Annot, c: Cursor, pos: nat): (r: Annot)
    requires pos < |c.subs|
    ensures r.learned == a.learned && r.newType == a.newType
    ensures var s, n := a.stack.stack, |a.stack.stack|;
      && (Has(c, pos, [BlockBegin]) ==>
            && r.stack.stack == s + [Block] && r.stack.depth == a.stack.depth + 1
            && r.templateParameters == a.templateParameters && r.newTemplateParameters == a.newTemplateParameters)
      && (!Has(c, pos, [BlockBegin]) && Has(c, pos, [BlockEnd]) ==>
            && r.templateParameters == a.templateParameters && r.newTemplateParameters == a.newTemplateParameters
            && (!Has(c, pos, [NamespaceEnd]) ==>
                  r.stack.depth == a.stack.depth - 1 && (n >= 1 ==> r.stack.stack == s[..n - 1]))
            && (Has(c, pos, [NamespaceEnd]) ==>
                  r.stack.depth == a.stack.depth - 2 && (n >= 2 ==> r.stack.stack == s[..n - 2])))
      && (!Has(c, pos, [BlockBegin]) && !Has(c, pos, [BlockEnd]) && Has(c, pos, [AngleBegin]) ==>
            && r.stack.stack == s + [Template] && r.stack.depth == a.stack.depth + 1
            && r.templateParameters == a.templateParameters && r.newTemplateParameters == a.newTemplateParameters)
      && (!Has(c, pos, [BlockBegin]) && !Has(c, pos, [BlockEnd]) && !Has(c, pos, [AngleBegin]) && Has(c, pos, [AngleEnd]) ==>
            && r.stack.depth == a.stack.depth - 1 && (n >= 1 ==> r.stack.stack == s[..n - 1])
            && r.newTemplateParameters == []
            && r.templateParameters ==
                 a.templateParameters + (if |a.newTemplateParameters| > 0 then [a.newTemplateParameters] else []))
      && (!Has(c, pos, [BlockBegin]) && !Has(c, pos, [BlockEnd]) && !Has(c, pos, [AngleBegin]) && !Has(c, pos, [AngleEnd]) ==>
            r == a)
  {
    if Has(c, pos, [BlockBegin]) then PushA(a, Block)
    else if Has(c, pos, [BlockEnd]) then CloseBlock(a, c, pos)
    else if Has(c, pos, [AngleBegin]) then PushA(a, Template)
    else if Has(c, pos, [AngleEnd]) then PopA(FlushTemplateParameters(a))
    else a
  }

  /** The blocks before the assignment block, in the order `semanticHighlight` tries them. */
  datatype Block =
    | StructureB | BlockB | TemplateB | TemplateSpecB | DeclarationB | TypeNameB
    | TypeDefB | StructNameB | FunctionHeadB | FunctionBodyB | VarDefB | ParensB

  const EarlyOrder: seq<Block> :=
    [StructureB, BlockB, TemplateB, TemplateSpecB, DeclarationB, TypeNameB,
     TypeDefB, StructNameB, FunctionHeadB, FunctionBodyB, VarDefB, ParensB]

  function RunBlock(b: Block, ctx: Ctx, a: Annot, c: Cursor, pos: nat): (r: Flow)
    requires Ready(ctx, c, pos) && c.idx == pos
    ensures EarlyBlock(ctx, pos, a, c, r)
    ensures b != ParensB && r.Fall? ==> r.a.stack == a.stack
  {
    match b
    case StructureB => StructureBlock(ctx, a, c, pos)
    case BlockB => BlockBlock(ctx, a, c, pos)
    case TemplateB => TemplateBlock(ctx, a, c, pos)
    case TemplateSpecB => TemplateSpecBlock(ctx, a, c, pos)
    case DeclarationB => DeclarationBlock(ctx, a, c, pos)
    case TypeNameB => TypeNameBlock(ctx, a, c, pos)
    case TypeDefB => TypeDefBlock(ctx, a, c, pos)
    case StructNameB => StructNameBlock(ctx, a, c, pos)
    case FunctionHeadB => FunctionHeadBlock(ctx, a, c, pos)
    case FunctionBodyB => FunctionBodyBlock(ctx, a, c, pos)
    case VarDefB => VarDefBlock(ctx, a, c, pos)
    case ParensB => ParensBlock(ctx, a, c, pos)
  }

  lemma ExtendsTrans<T>(x: seq<T>, y: seq<T>, z: seq<T>)
    requires Extends(x, y) && Extends(y, z)
    ensures Extends(x, z)
  {
    assert z[..|x|] == z[..|y|][..|x|];
  }

  /** Run `blocks` in order until one of them does not fall through. */
  function RunBlocks(blocks: seq<Block>, ctx: Ctx, a: Annot, c: Cursor, pos: nat): (r: Flow)
    requires Ready(ctx, c, pos) && c.idx == pos
    requires forall k | 0 <= k < |blocks| - 1 :: blocks[k] != ParensB
    ensures EarlyBlock(ctx, pos, a, c, r)
    decreases |blocks|
  {
    if |blocks| == 0 then Flowing(a, c, false)
    else
      var f := RunBlock(blocks[0], ctx, a, c, pos);
      if !f.Fall? || |blocks| == 1 then f
      else
        assert f.a.stack == a.stack;
        var g := RunBlocks(blocks[1..], ctx, f.a, f.c, pos);
        KeptTrans(ctx, pos, c, f.c, g.c);
        ExtendsTrans(a.learned, f.a.learned, g.a.learned);
        g
  }

  /** The blocks from the assignment block on, which may see the cursor one step back,
      followed by the bracket handling every subtoken that got this far receives. */
  function LateBlocks(ctx: Ctx, a: Annot, c: Cursor, pos: nat): (r: Flow)
    requires Ready(ctx, c, pos) && c.idx == pos
    ensures !r.Fall?
    ensures FlowKept(ctx, pos, a, c, r)
    ensures r.Continue? ==> pos - 1 <= r.c.idx <= pos
    ensures r.Continue? && r.c.idx != pos ==> TopIs(a, AssignmentRhs)
    ensures r.Crash? ==> pos == 0 && TopIs(a, AssignmentRhs)
  {
    var f13 := AssignmentBlock(ctx, a, c, pos);
    if f13.Crash? then Crash
    else if f13.Continue? then f13
    else
      var f14 := CastBlock(ctx, f13.a, f13.c, pos);
      if f14.Crash? then Crash
      else
        KeptTrans(ctx, pos, c, f13.c, f14.c);
        ExtendsTrans(a.learned, f13.a.learned, f14.a.learned);
        if f14.Continue? then f14
        else
          var f15 := ArrayIdxBlock(ctx, f14.a, f14.c, pos);
          if f15.Crash? then Crash
          else
            KeptTrans(ctx, pos, c, f14.c, f15.c);
            ExtendsTrans(a.learned, f14.a.learned, f15.a.learned);
            Continue(Brackets(f15.a, f15.c, pos), f15.c)
  }

  /** The states in which a subtoken can be looked at again: the step backs of the
      template-argument, `typename`, variable-declaration and assignment states, the last
      reached also after a closing parenthesis pops an initialiser's parentheses. */
  const ReexaminingStates: set<Option<SemanticScope>> :=
    {Some(TemplateSpec), Some(TypeName), Some(VarDef), Some(AssignmentRhs), Some(Parens)}

  /** One examination of the subtoken at `pos`: comments are skipped, then the blocks run
      in their fixed order until one continues. The resulting cursor index is where the
      TypeScript loop variable `explainedIdx` stands before its increment: `pos`, or `pos - 1` when the
      subtoken is to be looked at again. */
  function Examine(ctx: Ctx, a: Annot, c: Cursor, pos: nat): (r: Flow)
    requires Ready(ctx, c, pos) && c.idx == pos
    ensures !r.Fall?
    ensures FlowKept(ctx, pos, a, c, r)
    ensures r.Continue? ==> pos - 1 <= r.c.idx <= pos
    ensures r.Continue? && r.c.idx != pos ==> Top(a.stack) in ReexaminingStates
    ensures r.Crash? ==> pos == 0 && Top(a.stack) in {Some(AssignmentRhs), Some(Parens)}
  {
    if Has(c, pos, ["comment"]) then Flowing(a, c, true)
    else
      var f := RunBlocks(EarlyOrder, ctx, a, c, pos);
      if !f.Fall? then f
      else
        var g := LateBlocks(ctx, f.a, f.c, pos);
        if g.Crash? then g
        else
          KeptTrans(ctx, pos, c, f.c, g.c);
          ExtendsTrans(a.learned, f.a.learned, g.a.learned);
          g
  }

  /** One iteration of `semanticHighlight`'s subtoken loop: examine the subtoken under the cursor,
      then advance the cursor (which only re-reaches the same subtoken after a step back). */
  function Step(ctx: Ctx, a: Annot, c: Cursor): (r: Option<(Annot, Cursor)>)
    requires 0 <= c.idx < |c.subs| && WellIndexed(ctx.owner, c.subs) && ctx.owner.explanation.Some?
    ensures r.Some? ==> var (a2, c2) := r.value;
      && (c2.idx == c.idx || c2.idx == c.idx + 1)
      && c2.idx <= |c2.subs|
      && Kept(ctx, c.idx, c, c2)
      && Extends(a.learned, a2.learned)
    ensures r.Some? && r.value.1.idx == c.idx ==> Top(a.stack) in ReexaminingStates
    ensures r.None? ==> c.idx == 0 && Top(a.stack) in {Some(AssignmentRhs), Some(Parens)}
    ensures Has(c, c.idx, ["comment"]) ==> r == Some((a, c.(idx := c.idx + 1)))
  {
    match Examine(ctx, a, c, c.idx)
    case Crash => None
    case Continue(a2, c2) => Some((a2, c2.(idx := c2.idx + 1)))
  }

  /** `semanticHighlight`'s subtoken loop for one token, for at most `fuel` iterations. */
  function TokenLoop(ctx: Ctx, a: Annot, c: Cursor, fuel: nat): (r: Run<(Annot, seq<Token>)>)
    requires 0 <= c.idx <= |c.subs| && WellIndexed(ctx.owner, c.subs) && ctx.owner.explanation.Some?
    ensures r.Done? ==> Extends(c.out, r.value.1) && Extends(a.learned, r.value.0.learned)
    ensures r.Done? && AllFromExplanations(ctx.owner, c.out) ==> AllFromExplanations(ctx.owner, r.value.1)
    decreases fuel
  {
    if c.idx >= |c.subs| then Done((a, c.out))
    else if fuel == 0 then OutOfFuel
    else
      match Step(ctx, a, c)
      case None => Crashed
      case Some((a2, c2)) =>
        var r := TokenLoop(ctx, a2, c2, fuel - 1);
        if r.Done? then
          ExtendsTrans(c.out, c2.out, r.value.1);
          ExtendsTrans(a.learned, a2.learned, r.value.0.learned);
          r
        else r
  }

  /** The tokens one input token turns into: itself when it has no explanation or when
      nothing was emitted for it, and the emitted tokens otherwise. */
  function HighlightToken(theme: Theme, a: Annot, parsed: Token, fuel: nat): (r: Run<(Annot, seq<Token>)>)
    ensures parsed.explanation.None? ==> r == Done((a, [parsed]))
    ensures r.Done? ==> |r.value.1| > 0 && Extends(a.learned, r.value.0.learned)
    ensures r.Done? ==> r.value.1 == [parsed] || AllFromExplanations(parsed, r.value.1)
    ensures parsed.explanation.Some? ==>
      var loop := TokenLoop(Ctx(parsed, theme), a, Cursor(GetExplainedSubtokens(parsed).value, 0, []), fuel);
      && (loop.Done? && |loop.value.1| > 0 ==> r == loop)
      && (loop.Done? && |loop.value.1| == 0 ==> r == Done((loop.value.0, [parsed])))
      && (loop.Crashed? ==> r.Crashed?)
      && (loop.OutOfFuel? ==> r.OutOfFuel?)
  {
    match GetExplainedSubtokens(parsed)
    case None => Done((a, [parsed]))
    case Some(subs) =>
      match TokenLoop(Ctx(parsed, theme), a, Cursor(subs, 0, []), fuel)
      case Done((a2, out)) => Done((a2, if |out| == 0 then [parsed] else out))
      case Crashed => Crashed
      case OutOfFuel => OutOfFuel
  }

  /** All tokens of one line, left to right, threading the state through. */
  function HighlightLine(theme: Theme, a: Annot, line: seq<Token>, fuel: nat): (r: Run<(Annot, seq<Token>)>)
    ensures r.Done? ==> Extends(a.learned, r.value.0.learned)
    ensures r.Done? ==> |r.value.1| >= |line|
    decreases |line|
  {
    if |line| == 0 then Done((a, []))
    else
      match HighlightToken(theme, a, line[0], fuel)
      case Crashed => Crashed
      case OutOfFuel => OutOfFuel
      case Done((a1, toks)) =>
        match HighlightLine(theme, a1, line[1..], fuel)
        case Crashed => Crashed
        case OutOfFuel => OutOfFuel
        case Done((a2, rest)) =>
          assert a2.learned[..|a.learned|] == a2.learned[..|a1.learned|][..|a.learned|];
          Done((a2, toks + rest))
  }

  /** All lines, top to bottom, threading the state through. */
  function HighlightLines(theme: Theme, a: Annot, lines: seq<seq<Token>>, fuel: nat): (r: Run<(Annot, seq<seq<Token>>)>)
    ensures r.Done? ==> |r.value.1| == |lines|
    ensures r.Done? ==> Extends(a.learned, r.value.0.learned)
    decreases |lines|
  {
    if |lines| == 0 then Done((a, []))
    else
      match HighlightLine(theme, a, lines[0], fuel)
      case Crashed => Crashed
      case OutOfFuel => OutOfFuel
      case Done((a1, toks)) =>
        match HighlightLines(theme, a1, lines[1..], fuel)
        case Crashed => Crashed
        case OutOfFuel => OutOfFuel
        case Done((a2, rest)) =>
          assert a2.learned[..|a.learned|] == a2.learned[..|a1.learned|][..|a.learned|];
          Done((a2, [toks] + rest))
  }

  /** The highlighted lines, and whether the scope stack was left unbalanced (the TypeScript
      highlighter only logs that). */
  datatype Highlighted = Highlighted(lines: seq<seq<Token>>, unpopped: bool)

  /** The annotator, with a fresh stack and symbol table; `fuel` bounds the iterations of
      the subtoken loop of each token. */
  function SemanticHighlight(lines: seq<seq<Token>>, theme: Theme, fuel: nat): (r: Run<Highlighted>)
    ensures r.Done? ==> |r.value.lines| == |lines|
  {
    match HighlightLines(theme, Fresh, lines, fuel)
    case Crashed => Crashed
    case OutOfFuel => OutOfFuel
    case Done((a, out)) => Done(Highlighted(out, a.stack.depth != 0))
  }
}

=== FILE: annotator_facts.dfy ===
/** Properties of the semantic annotator: which block handles a subtoken in each state,
    and what the main declarations turn into. */
module AnnotatorFacts {
  import opened Wrappers
  import opened Strings
  import opened Matcher
  import opened Tokens
  import opened ScopeStacks
  import opened Symbols
  import opened Annotator

  /** The stack tops under which a block can act; under any other top it falls through
      without touching anything. */
  function Guard(b: Block): set<Option<SemanticScope>> {
    match b
    case StructureB => {Some(Structure)}
    case BlockB => {Some(Block)}
    case TemplateB => {Some(Template)}
    case TemplateSpecB => {Some(TemplateSpec)}
    case DeclarationB => {Some(Source), Some(Block), Some(Structure), Some(Template)}
    case TypeNameB => {Some(TypeName)}
    case TypeDefB => {Some(TypeDef)}
    case StructNameB => {Some(StructName)}
    case FunctionHeadB => {Some(FunctionHead)}
    case FunctionBodyB => {Some(FunctionBody)}
    case VarDefB => {Some(VarDef)}
    case ParensB => {Some(Parens)}
  }

  /** One step of the chain: the first block's result, unless it falls through to the
      rest. */
  lemma RunBlocksStep(blocks: seq<Block>, ctx: Ctx, a: Annot, c: Cursor, pos: nat)
    requires Ready(ctx, c, pos) && c.idx == pos
    requires forall k | 0 <= k < |blocks| - 1 :: blocks[k] != ParensB
    requires |blocks| > 0
    ensures var f := RunBlock(blocks[0], ctx, a, c, pos);
      && (!f.Fall? || |blocks| == 1 ==> RunBlocks(blocks, ctx, a, c, pos) == f)
      && (f == Fall(a, c) && |blocks| > 1 ==> RunBlocks(blocks, ctx, a, c, pos) == RunBlocks(blocks[1..], ctx, a, c, pos))
  {
  }

  lemma IdleBlock(b: Block, ctx: Ctx, a: Annot, c: Cursor, pos: nat)
    requires Ready(ctx, c, pos) && c.idx == pos
    requires Top(a.stack) !in Guard(b)
    ensures RunBlock(b, ctx, a, c, pos) == Fall(a, c)
  {
  }

  /** An idle first block can be skipped. */
  lemma SkipIdleBlock(blocks: seq<Block>, ctx: Ctx, a: Annot, c: Cursor, pos: nat)
    requires Ready(ctx, c, pos) && c.idx == pos
    requires forall k | 0 <= k < |blocks| - 1 :: blocks[k] != ParensB
    requires |blocks| > 0 && Top(a.stack) !in Guard(blocks[0])
    ensures RunBlocks(blocks, ctx, a, c, pos) == RunBlocks(blocks[1..], ctx, a, c, pos)
  {
    IdleBlock(blocks[0], ctx, a, c, pos);
    RunBlocksStep(blocks, ctx, a, c, pos);
  }

  /** What holds of a chain's first `n` blocks holds of its tail's first `n - 1`. */
  lemma TailOfChain(blocks: seq<Block>, n: nat, top: Option<SemanticScope>)
    requires 0 < n <= |blocks|
    requires forall k | 0 <= k < |blocks| - 1 :: blocks[k] != ParensB
    requires forall b | b in blocks[..n] :: top !in Guard(b)
    ensures top !in Guard(blocks[0])
    ensures forall b | b in blocks[1..][..n - 1] :: top !in Guard(b)
    ensures forall k | 0 <= k < |blocks[1..]| - 1 :: blocks[1..][k] != ParensB
    ensures blocks[1..][n - 1..] == blocks[n..]
  {
    assert blocks[0] in blocks[..n];
    assert blocks[1..][..n - 1] == blocks[1..n];
    assert forall b | b in blocks[1..n] :: b in blocks[..n];
    assert forall k | 0 <= k < |blocks| - 2 :: blocks[1..][k] == blocks[k + 1];
  }

  /** Idle blocks at the front of the chain can be skipped. */
  lemma {:induction false} SkipIdleBlocks(blocks: seq<Block>, n: nat, ctx: Ctx, a: Annot, c: Cursor, pos: nat)
    requires Ready(ctx, c, pos) && c.idx == pos
    requires forall k | 0 <= k < |blocks| - 1 :: blocks[k] != ParensB
    requires n <= |blocks|
    requires forall b | b in blocks[..n] :: Top(a.stack) !in Guard(b)
    ensures RunBlocks(blocks, ctx, a, c, pos) == RunBlocks(blocks[n..], ctx, a, c, pos)
    decreases n
  {
    if n > 0 {
      TailOfChain(blocks, n, Top(a.stack));
      SkipIdleBlock(blocks, ctx, a, c, pos);
      SkipIdleBlocks(blocks[1..], n - 1, ctx, a, c, pos);
    }
  }

  /** The block that handles a subtoken under each stack top that has one block of its
      own which never lets the subtoken fall through, with its place in the chain. */
  function Handler(s: SemanticScope): Option<(Block, nat)> {
    match s
    case Source => Some((DeclarationB, 4))
    case TemplateSpec => Some((TemplateSpecB, 3))
    case TypeName => Some((TypeNameB, 5))
    case TypeDef => Some((TypeDefB, 6))
    case StructName => Some((StructNameB, 7))
    case FunctionHead => Some((FunctionHeadB, 8))
    case FunctionBody => Some((FunctionBodyB, 9))
    case VarDef => Some((VarDefB, 10))
    case _ => None
  }

  /** Under a stack top with its own block, the chain's result is that block's. */
  lemma ChainByTop(ctx: Ctx, a: Annot, c: Cursor, pos: nat, s: SemanticScope)
    requires Ready(ctx, c, pos) && c.idx == pos
    requires Top(a.stack) == Some(s) && Handler(s).Some?
    ensures RunBlocks(EarlyOrder, ctx, a, c, pos) == RunBlock(Handler(s).value.0, ctx, a, c, pos)
    ensures RunBlock(Handler(s).value.0, ctx, a, c, pos).Continue?
  {
    var (b, n) := Handler(s).value;
    HandlerPlace(s);
    HandlerContinues(ctx, a, c, pos, s);
    SkipIdleBlocks(EarlyOrder, n, ctx, a, c, pos);
    RunBlocksStep(EarlyOrder[n..], ctx, a, c, pos);
  }

  /** A state's own block never lets the subtoken fall through. */
  lemma HandlerContinues(ctx: Ctx, a: Annot, c: Cursor, pos: nat, s: SemanticScope)
    requires Ready(ctx, c, pos) && c.idx == pos
    requires Top(a.stack) == Some(s) && Handler(s).Some?
    ensures RunBlock(Handler(s).value.0, ctx, a, c, pos).Continue?
  {
    match s
    case Source =>
    case TemplateSpec =>
    case TypeName =>
    case TypeDef =>
    case StructName =>
    case FunctionHead =>
    case FunctionBody =>
    case VarDef =>
  }

  /** Every block before a state's own block in the chain is idle under that state. */
  lemma HandlerPlace(s: SemanticScope)
    requires Handler(s).Some?
    ensures var (b, n) := Handler(s).value;
      && n < |EarlyOrder| && EarlyOrder[n..][0] == b
      && (forall x | x in EarlyOrder[..n] :: Some(s) !in Guard(x))
      && (forall k | 0 <= k < |EarlyOrder| - 1 :: EarlyOrder[k] != ParensB)
      && (forall k | 0 <= k < |EarlyOrder[n..]| - 1 :: EarlyOrder[n..][k] != ParensB)
  {
    var (b, n) := Handler(s).value;
    forall x | x in EarlyOrder[..n] ensures Some(s) !in Guard(x) {
      match s
      case Source =>
      case TemplateSpec =>
      case TypeName =>
      case TypeDef =>
      case StructName =>
      case FunctionHead =>
      case FunctionBody =>
      case VarDef =>
    }
  }

  /** Dispatch: under each of these stack tops, a subtoken that is not a comment is
      handled by that state's block alone. */
  lemma ExamineByTop(ctx: Ctx, a: Annot, c: Cursor, pos: nat, s: SemanticScope)
    requires Ready(ctx, c, pos) && c.idx == pos
    requires !Has(c, pos, ["comment"])
    requires Top(a.stack) == Some(s) && Handler(s).Some?
    ensures Examine(ctx, a, c, pos) == RunBlock(Handler(s).value.0, ctx, a, c, pos)
    ensures Examine(ctx, a, c, pos).Continue?
  {
    ChainByTop(ctx, a, c, pos, s);
  }

  /** Under a stack top no block is guarded by (a namespace body, say), a subtoken only
      opens or closes brackets. */
  lemma ExamineOutsideEveryBlock(ctx: Ctx, a: Annot, c: Cursor, pos: nat)
    requires Ready(ctx, c, pos) && c.idx == pos
    requires !Has(c, pos, ["comment"])
    requires Top(a.stack) in {None, Some(Namespace), Some(TypeScope)}
    ensures Examine(ctx, a, c, pos) == Continue(Brackets(a, c, pos), c)
  {
    UnguardedTop(Top(a.stack));
    NoBlockActs(EarlyOrder, ctx, a, c, pos);
    LateBlocksIdle(ctx, a, c, pos);
  }

  /** No block of the early chain is guarded by these stack tops. */
  lemma UnguardedTop(top: Option<SemanticScope>)
    requires top in {None, Some(Namespace), Some(TypeScope), Some(AssignmentRhs), Some(Cast), Some(ArrayIdx)}
    ensures forall b | b in EarlyOrder :: top !in Guard(b)
    ensures forall k | 0 <= k < |EarlyOrder| - 1 :: EarlyOrder[k] != ParensB
  {
  }

  /** Outside the assignment, cast and array-bounds states, the late blocks only handle
      brackets. */
  lemma LateBlocksIdle(ctx: Ctx, a: Annot, c: Cursor, pos: nat)
    requires Ready(ctx, c, pos) && c.idx == pos
    requires Top(a.stack) !in {Some(AssignmentRhs), Some(Cast), Some(ArrayIdx)}
    ensures LateBlocks(ctx, a, c, pos) == Continue(Brackets(a, c, pos), c)
  {
  }

  /** Seen from the top of a stack in step: an opening brace or `<` puts `Block` or
      `Template` on top, and a closing bracket uncovers the entry one level down, or two
      levels down for a namespace's closing brace. */
  lemma BracketsTop(a: Annot, c: Cursor, pos: nat)
    requires pos < |c.subs| && InStep(a.stack)
    ensures var r := Brackets(a, c, pos);
      && (Has(c, pos, [BlockBegin]) ==> InStep(r.stack) && Top(r.stack) == Some(Block))
      && (!Has(c, pos, [BlockBegin]) && Has(c, pos, [BlockEnd]) && !Has(c, pos, [NamespaceEnd]) && |a.stack.stack| >= 1 ==>
            InStep(r.stack) && Top(r.stack) == Ancestor(a.stack, 1))
      && (!Has(c, pos, [BlockBegin]) && Has(c, pos, [BlockEnd]) && Has(c, pos, [NamespaceEnd]) && |a.stack.stack| >= 2 ==>
            InStep(r.stack) && Top(r.stack) == Ancestor(a.stack, 2))
      && (!Has(c, pos, [BlockBegin]) && !Has(c, pos, [BlockEnd]) && Has(c, pos, [AngleBegin]) ==>
            InStep(r.stack) && Top(r.stack) == Some(Template))
      && (!Has(c, pos, [BlockBegin]) && !Has(c, pos, [BlockEnd]) && !Has(c, pos, [AngleBegin]) && Has(c, pos, [AngleEnd]) && |a.stack.stack| >= 1 ==>
            InStep(r.stack) && Top(r.stack) == Ancestor(a.stack, 1))
  {
  }

  /** A template clause's `<` and its closing `>` leave the scope stack as it was, and
      the parameters collected in between become one new level of the
      template-parameter stack (none when nothing was collected). */
  lemma TemplateBracketsRoundTrip(a: Annot, c: Cursor, p: nat, q: nat, pending: seq<string>)
    requires p < |c.subs| && q < |c.subs|
    requires !Has(c, p, [BlockBegin]) && !Has(c, p, [BlockEnd]) && Has(c, p, [AngleBegin])
    requires !Has(c, q, [BlockBegin]) && !Has(c, q, [BlockEnd]) && !Has(c, q, [AngleBegin]) && Has(c, q, [AngleEnd])
    ensures var r := Brackets(Brackets(a, c, p).(newTemplateParameters := pending), c, q);
      && r.stack == a.stack && r.learned == a.learned
      && r.newTemplateParameters == []
      && r.templateParameters == a.templateParameters + (if |pending| > 0 then [pending] else [])
  {
    PopUndoesPush(a.stack, Template);
  }

  /** A chain of idle blocks falls through untouched. */
  lemma {:induction false} NoBlockActs(blocks: seq<Block>, ctx: Ctx, a: Annot, c: Cursor, pos: nat)
    requires Ready(ctx, c, pos) && c.idx == pos
    requires forall k | 0 <= k < |blocks| - 1 :: blocks[k] != ParensB
    requires forall b | b in blocks :: Top(a.stack) !in Guard(b)
    ensures RunBlocks(blocks, ctx, a, c, pos) == Fall(a, c)
    decreases |blocks|
  {
    if |blocks| > 0 {
      assert blocks[..|blocks|] == blocks;
      TailOfChain(blocks, |blocks|, Top(a.stack));
      SkipIdleBlock(blocks, ctx, a, c, pos);
      assert blocks[1..][..|blocks| - 1] == blocks[1..];
      NoBlockActs(blocks[1..], ctx, a, c, pos);
    }
  }

  // ---------------------------------------------------------------------------
  // What the main declarations turn into

  /** The last token emitted carries the semantic scope `name` on top of its
      explanation's scopes. */
  predicate MarkedLast(out: seq<Token>, name: string) {
    && |out| > 0
    && out[|out| - 1].explanation.Some?
    && |out[|out| - 1].explanation.value| == 1
    && var sc := out[|out| - 1].explanation.value[0].scopes;
       |sc| > 0 && sc[|sc| - 1].scopeName == name + ".sema"
  }

  /** Emitting with a semantic scope marks the new token with it and keeps the
      subtoken's text. */
  lemma EmitMarks(ctx: Ctx, c: Cursor, pos: nat, name: string)
    requires pos < |c.subs| && 0 <= c.idx <= pos && WellIndexed(ctx.owner, c.subs)
    requires ctx.owner.explanation.Some?
    ensures EmitC(ctx, c, pos, Some(name)).Some?
    ensures MarkedLast(EmitC(ctx, c, pos, Some(name)).value.out, name)
    ensures var out := EmitC(ctx, c, pos, Some(name)).value.out; out[|out| - 1].content == Content(c, pos)
  {
    var t := CreateNewThemedToken(ctx.owner, c.subs[pos], Some(NewScope(name, ctx.theme)));
    var out := EmitC(ctx, c, pos, Some(name)).value.out;
    assert out[|out| - 1] == t;
    var e := ctx.owner.explanation.value[c.subs[pos].index];
    assert t.explanation.value[0].scopes == e.scopes + [ScopeEntry(name + ".sema", ExplainThemeScope(ctx.theme, name, Scopes(c, pos)))];
  }

  /** At file, block, struct or template level, a subtoken that starts with a known type
      declares something of that type: the type is split off and marked as a defined
      type, and a variable declaration begins. */
  lemma KnownTypeStartsDeclaration(ctx: Ctx, a: Annot, c: Cursor, pos: nat)
    requires Ready(ctx, c, pos) && c.idx == pos && ctx.owner.explanation.Some?
    requires Top(a.stack) in {Some(Source), Some(Block), Some(Structure), Some(Template)}
    requires !Has(c, pos, ["meta.function.definition"]) && !Has(c, pos, ["storage.type.namespace.definition"])
    requires !Has(c, pos, ["storage.type.template"]) && !Has(c, pos, ["entity.name.scope-resolution"])
    requires !Has(c, pos, ["storage.type.struct"])
    requires Known(a, c, pos) && TypeWord(Content(c, pos)) != ""
    ensures var r := DeclarationBlock(ctx, a, c, pos);
      && r.Continue?
      && r.a == PushA(a, VarDef)
      && MarkedLast(r.c.out, DefinedType)
      && r.c.out[|r.c.out| - 1].content == Content(c, pos)[..TrimLead(Content(c, pos))] + TypeWord(Content(c, pos))
  {
    var content := Content(c, pos);
    SplitTypeTokenLeavesType(c.subs, pos, a.learned, a.templateParameters);
    var (c1, _) := SplitTypeC(ctx, a, c, pos);
    assert c1.subs[pos].content == content[..TrimLead(content)] + TypeWord(content);
    EmitMarks(ctx, c1, pos, DefinedType);
    var r := DeclarationBlock(ctx, a, c, pos);
    assert r.c == EmitC(ctx, c1, pos, Some(DefinedType)).value;
  }

  /** In a variable declaration, a subtoken the grammar calls an object, and that none of
      the declaration's earlier branches claims, is marked as the declared variable's name;
      the state does not change and the subtoken is not looked at again. */
  lemma ObjectNameIsVariableName(ctx: Ctx, a: Annot, c: Cursor, pos: nat)
    requires Ready(ctx, c, pos) && c.idx == pos && ctx.owner.explanation.Some?
    requires TopIs(a, VarDef) && !Has(c, pos, ["comment"])
    requires !Has(c, pos, ["entity.name.function"]) && !Has(c, pos, ["meta.function.definition.parameters"])
    requires !Has(c, pos, ["punctuation.section.block.begin.bracket.curly"])
    requires !Has(c, pos, ["punctuation.terminator.statement"])
    requires Trim(Content(c, pos)) != "<" && !(Ancestor(a.stack, 1) == Some(Template) && Trim(Content(c, pos)) == ">")
    requires !Has(c, pos, ["keyword.operator.assignment"]) && !Has(c, pos, ["punctuation.definition.begin.bracket.square"])
    requires LastHas(c, pos, ["variable.other.object", "variable.object"])
    ensures var r := Examine(ctx, a, c, pos);
      && r == Continue(a, r.c) && r.c.subs == c.subs && r.c.idx == pos
      && MarkedLast(r.c.out, VariableName)
      && r.c.out[|r.c.out| - 1].content == Content(c, pos)
  {
    ExamineIsVarDef(ctx, a, c, pos);
    VarDefObjectName(ctx, a, c, pos);
  }

  /** The variable-declaration block's part of the above. */
  lemma VarDefObjectName(ctx: Ctx, a: Annot, c: Cursor, pos: nat)
    requires Ready(ctx, c, pos) && c.idx == pos && ctx.owner.explanation.Some?
    requires TopIs(a, VarDef)
    requires !Has(c, pos, ["entity.name.function"]) && !Has(c, pos, ["meta.function.definition.parameters"])
    requires !Has(c, pos, ["punctuation.section.block.begin.bracket.curly"])
    requires !Has(c, pos, ["punctuation.terminator.statement"])
    requires Trim(Content(c, pos)) != "<" && !(Ancestor(a.stack, 1) == Some(Template) && Trim(Content(c, pos)) == ">")
    requires !Has(c, pos, ["keyword.operator.assignment"]) && !Has(c, pos, ["punctuation.definition.begin.bracket.square"])
    requires LastHas(c, pos, ["variable.other.object", "variable.object"])
    ensures var r := VarDefBlock(ctx, a, c, pos);
      && r == Continue(a, r.c) && r.c.subs == c.subs && r.c.idx == pos
      && MarkedLast(r.c.out, VariableName)
      && r.c.out[|r.c.out| - 1].content == Content(c, pos)
  {
    EmitMarks(ctx, c, pos, VariableName);
  }

  /** In a variable declaration, a function name turns it into a function head. */
  lemma FunctionNameStartsFunctionHead(ctx: Ctx, a: Annot, c: Cursor, pos: nat)
    requires Ready(ctx, c, pos) && c.idx == pos && ctx.owner.explanation.Some?
    requires TopIs(a, VarDef) && Has(c, pos, ["entity.name.function"])
    ensures var r := VarDefBlock(ctx, a, c, pos);
      && r.Continue? && r.a.stack == Push(Pop(a.stack), FunctionHead)
      && MarkedLast(r.c.out, FunctionDefinition)
  {
    EmitMarks(ctx, c, pos, FunctionDefinition);
  }

  /** After `struct`, a name the grammar did not already call a type is marked as one,
      and the struct-name state ends either way. */
  lemma StructNameIsMarked(ctx: Ctx, a: Annot, c: Cursor, pos: nat)
    requires Ready(ctx, c, pos) && c.idx == pos && ctx.owner.explanation.Some?
    requires TopIs(a, StructName)
    ensures var r := StructNameBlock(ctx, a, c, pos);
      && r.Continue? && r.a == PopA(a)
      && (!Has(c, pos, [EntityType]) ==> MarkedLast(r.c.out, EntityType))
      && (Has(c, pos, [EntityType]) ==> r.c == c)
  {
    if !Has(c, pos, [EntityType]) {
      EmitMarks(ctx, c, pos, EntityType);
    }
  }

  /** In a `typedef` or `using` statement, the grammar's type name is remembered as the
      name the statement introduces. */
  lemma TypedefRemembersName(ctx: Ctx, a: Annot, c: Cursor, pos: nat)
    requires Ready(ctx, c, pos) && c.idx == pos
    requires TopIs(a, TypeDef) && Has(c, pos, [EntityType])
    ensures var r := TypeDefBlock(ctx, a, c, pos);
      r.Continue? && r.a == a.(newType := Trim(Content(c, pos)))
  {
  }

  /** The `;` that ends a `typedef` or `using` statement makes the introduced name a
      known type, from then on and whatever the template parameters are. */
  lemma TypedefTerminatorLearnsName(ctx: Ctx, a: Annot, c: Cursor, pos: nat, later: seq<seq<string>>)
    requires Ready(ctx, c, pos) && c.idx == pos
    requires TopIs(a, TypeDef) && !Has(c, pos, [EntityType]) && !LastHas(c, pos, BodyScopes)
    requires Has(c, pos, ["punctuation.terminator.statement"])
    requires Trim(a.newType) != "" && ' ' !in Trim(a.newType)
    ensures var r := TypeDefBlock(ctx, a, c, pos);
      && r.Continue?
      && r.a.learned == a.learned + [Trim(a.newType)]
      && r.a.newType == ""
      && IsKnownType(a.newType, r.a.learned, later)
  {
    var r := TypeDefBlock(ctx, a, c, pos);
    assert a.newType != "";
    var a1 := LearnA(a, a.newType).(newType := "");
    assert r.a.learned == a1.learned;
    LearnWordIsKnown(a.newType, a.learned, later);
  }

  /** The `>` that closes a template parameter clause makes its parameter names known
      as types, ends the `typename` state, and is then looked at again. */
  lemma TemplateClauseDeclaresParameters(ctx: Ctx, a: Annot, c: Cursor, pos: nat)
    requires Ready(ctx, c, pos) && c.idx == pos
    requires TopIs(a, TypeName) && !Has(c, pos, ["entity.name.type.template"]) && Content(c, pos) != ","
    requires Has(c, pos, [AngleEnd]) && |a.newTemplateParameters| > 0
    ensures var r := TypeNameBlock(ctx, a, c, pos);
      && r.Continue? && r.c.idx == pos - 1
      && r.a.stack == Pop(a.stack)
      && r.a.templateParameters == a.templateParameters + [a.newTemplateParameters]
      && r.a.newTemplateParameters == []
      && forall i :: 0 <= i < |a.newTemplateParameters| ==> InSomeLevel(a.newTemplateParameters[i], r.a.templateParameters)
  {
    var r := TypeNameBlock(ctx, a, c, pos);
    var tp := r.a.templateParameters;
    forall i | 0 <= i < |a.newTemplateParameters|
      ensures InSomeLevel(a.newTemplateParameters[i], tp)
    {
      assert a.newTemplateParameters[i] in tp[|tp| - 1];
    }
  }

  /** A parameter clause that named nothing (`template <typename>`) closes without a
      parameter list of its own: the `template` entry its keyword pushed is uncovered, and
      the template-parameter stack is left as it was. */
  lemma UnnamedClausePushesNoList(ctx: Ctx, a: Annot, c: Cursor, pos: nat)
    requires Ready(ctx, c, pos) && c.idx == pos
    requires TopIs(a, TypeName) && !Has(c, pos, ["entity.name.type.template"]) && Content(c, pos) != ","
    requires Has(c, pos, [AngleEnd]) && |a.newTemplateParameters| == 0
    requires InStep(a.stack) && Ancestor(a.stack, 1) == Some(Template)
    ensures var r := TypeNameBlock(ctx, a, c, pos);
      && r.Continue? && r.c.idx == pos - 1
      && Top(r.a.stack) == Some(Template)
      && r.a.templateParameters == a.templateParameters
  {
    var r := TypeNameBlock(ctx, a, c, pos);
    assert r.a.stack == Pop(a.stack);
    PopInStep(a.stack);
  }

  /** The `}` that closes a function body directly under a `template` entry pops that entry
      together with the innermost parameter list, whichever clause pushed that list: after
      an unnamed clause the list taken is the enclosing template's, and a `template` entry
      further down is left without one. */
  lemma FunctionBodyCloseTakesInnermostList(ctx: Ctx, a: Annot, c: Cursor, pos: nat)
    requires Ready(ctx, c, pos) && c.idx == pos
    requires TopIs(a, FunctionBody) && InStep(a.stack) && Ancestor(a.stack, 1) == Some(Template)
    requires !Has(c, pos, ["punctuation.section.block.begin.bracket.curly"])
    requires Has(c, pos, ["punctuation.section.block.end.bracket.curly"])
    requires |a.templateParameters| > 0
    ensures var r := FunctionBodyBlock(ctx, a, c, pos);
      && r.Continue? && r.c == c
      && r.a.stack.stack + [Template, FunctionBody] == a.stack.stack
      && r.a.templateParameters + [a.templateParameters[|a.templateParameters| - 1]] == a.templateParameters
      && (Template in a.stack.stack[..|a.stack.stack| - 2] ==> Template in r.a.stack.stack)
  {
    var a1 := PopA(a);
    PopInStep(a.stack);
    assert Top(a1.stack) == Some(Template);
    var r := FunctionBodyBlock(ctx, a, c, pos);
    assert r.a.stack.stack + [Template] == a1.stack.stack;
    assert a1.stack.stack + [FunctionBody] == a.stack.stack;
  }

  /** After the right-hand side of an assignment ends at a `;`, the `;` is looked at
      again by the declaration it belongs to; on the very first subtoken of a token with
      output already pending, stepping back has nowhere to go and the TypeScript highlighter throws. */
  lemma AssignmentEndsAtTerminator(ctx: Ctx, a: Annot, c: Cursor, pos: nat)
    requires Ready(ctx, c, pos) && c.idx == pos
    requires TopIs(a, AssignmentRhs) && Has(c, pos, ["punctuation.terminator.statement"])
    ensures var r := AssignmentBlock(ctx, a, c, pos);
      && (r.Crash? <==> pos == 0 && |c.out| > 0)
      && (!r.Crash? ==> r.Fall? && r.c.idx == pos - 1 && r.a == PopA(a))
  {
  }

  /** The `;` that ends an initialiser is emitted twice once output is pending for its
      token: the assignment state emits it after stepping back, and the declaration it
      belongs to emits it again when the loop comes back to it. */
  lemma AssignmentTerminatorEmittedTwice(ctx: Ctx, a: Annot, c: Cursor, pos: nat)
    requires Ready(ctx, c, pos) && c.idx == pos && pos >= 1 && |c.out| > 0
    requires TopIs(a, AssignmentRhs) && Top(Pop(a.stack)) == Some(VarDef)
    requires Has(c, pos, ["punctuation.terminator.statement"]) && !Has(c, pos, ["comment"])
    requires !Has(c, pos, [BlockBegin]) && !Has(c, pos, [BlockEnd])
    requires !Has(c, pos, [AngleBegin]) && !Has(c, pos, [AngleEnd])
    requires !Has(c, pos, ["entity.name.function"]) && !Has(c, pos, ["meta.function.definition.parameters"])
    requires !Has(c, pos, ["punctuation.section.block.begin.bracket.curly"])
    ensures var s1 := Step(ctx, a, c);
      && s1.Some? && s1.value.1.idx == pos && s1.value.1.subs == c.subs
      && var s2 := Step(ctx, s1.value.0, s1.value.1);
         && s2.Some? && s2.value.1.idx == pos + 1
         && var out := s2.value.1.out;
            && |out| >= |c.out| + 2
            && out[|out| - 1] == CreateNewThemedToken(ctx.owner, c.subs[pos], None)
            && out[|out| - 2] == CreateNewThemedToken(ctx.owner, c.subs[pos], None)
  {
    AssignmentTerminatorStep(ctx, a, c, pos);
    var c2 := EmitC(ctx, c.(idx := pos - 1), pos, None).value.(idx := pos);
    VarDefTerminatorStep(ctx, PopA(a), c2, pos);
  }

  /** The first of the two emissions: the assignment state ends, the `;` is emitted, and
      the cursor comes back to it. */
  lemma AssignmentTerminatorStep(ctx: Ctx, a: Annot, c: Cursor, pos: nat)
    requires Ready(ctx, c, pos) && c.idx == pos && pos >= 1 && |c.out| > 0
    requires TopIs(a, AssignmentRhs) && Top(Pop(a.stack)) == Some(VarDef)
    requires Has(c, pos, ["punctuation.terminator.statement"]) && !Has(c, pos, ["comment"])
    requires !Has(c, pos, [BlockBegin]) && !Has(c, pos, [BlockEnd])
    requires !Has(c, pos, [AngleBegin]) && !Has(c, pos, [AngleEnd])
    ensures Step(ctx, a, c) == Some((PopA(a), EmitC(ctx, c.(idx := pos - 1), pos, None).value.(idx := pos)))
  {
    UnguardedTop(Top(a.stack));
    NoBlockActs(EarlyOrder, ctx, a, c, pos);
    var c1 := EmitC(ctx, c.(idx := pos - 1), pos, None).value;
    assert AssignmentBlock(ctx, a, c, pos) == Fall(PopA(a), c1);
  }

  /** The second emission: a declaration emits its terminating `;` and ends. */
  lemma VarDefTerminatorStep(ctx: Ctx, a: Annot, c: Cursor, pos: nat)
    requires Ready(ctx, c, pos) && c.idx == pos && |c.out| > 0
    requires TopIs(a, VarDef) && !Has(c, pos, ["comment"])
    requires Has(c, pos, ["punctuation.terminator.statement"])
    requires !Has(c, pos, ["entity.name.function"]) && !Has(c, pos, ["meta.function.definition.parameters"])
    requires !Has(c, pos, ["punctuation.section.block.begin.bracket.curly"])
    ensures var s := Step(ctx, a, c);
      s.Some? && s.value.0 == PopA(a) && s.value.1 == EmitC(ctx, c, pos, None).value.(idx := pos + 1)
  {
    ExamineIsVarDef(ctx, a, c, pos);
    VarDefTerminatorBlock(ctx, a, c, pos);
    StepAfterContinue(ctx, a, c, PopA(a), EmitC(ctx, c, pos, None).value);
  }

  /** A loop iteration whose examination continues moves the cursor on by one. */
  lemma StepAfterContinue(ctx: Ctx, a: Annot, c: Cursor, a2: Annot, c2: Cursor)
    requires 0 <= c.idx < |c.subs| && WellIndexed(ctx.owner, c.subs) && ctx.owner.explanation.Some?
    requires Examine(ctx, a, c, c.idx) == Continue(a2, c2)
    ensures Step(ctx, a, c).Some? && Step(ctx, a, c).value.0 == a2 && Step(ctx, a, c).value.1 == c2.(idx := c2.idx + 1)
  {
  }

  lemma VarDefTerminatorBlock(ctx: Ctx, a: Annot, c: Cursor, pos: nat)
    requires Ready(ctx, c, pos) && c.idx == pos && |c.out| > 0
    requires TopIs(a, VarDef)
    requires Has(c, pos, ["punctuation.terminator.statement"])
    requires !Has(c, pos, ["entity.name.function"]) && !Has(c, pos, ["meta.function.definition.parameters"])
    requires !Has(c, pos, ["punctuation.section.block.begin.bracket.curly"])
    ensures VarDefBlock(ctx, a, c, pos) == Continue(PopA(a), EmitC(ctx, c, pos, None).value)
  {
  }

  /** Inside a variable declaration, examining a subtoken that is not a comment is what
      the declaration's block does with it. */
  lemma ExamineIsVarDef(ctx: Ctx, a: Annot, c: Cursor, pos: nat)
    requires Ready(ctx, c, pos) && c.idx == pos
    requires TopIs(a, VarDef) && !Has(c, pos, ["comment"])
    ensures Examine(ctx, a, c, pos) == VarDefBlock(ctx, a, c, pos)
  {
    assert Handler(VarDef).value.0 == VarDefB;
    ExamineByTop(ctx, a, c, pos, VarDef);
  }

  /** Comments leave no trace: once every subtoken still ahead of the cursor is a comment,
      the loop only walks past them, given one iteration per subtoken. */
  lemma {:induction false} CommentsLeaveNoTrace(ctx: Ctx, a: Annot, c: Cursor, fuel: nat)
    requires 0 <= c.idx <= |c.subs| && WellIndexed(ctx.owner, c.subs) && ctx.owner.explanation.Some?
    requires forall i :: c.idx <= i < |c.subs| ==> MatchesAny(["comment"], c.subs[i].scopes)
    requires fuel >= |c.subs| - c.idx
    ensures TokenLoop(ctx, a, c, fuel) == Done((a, c.out))
    decreases |c.subs| - c.idx
  {
    if c.idx < |c.subs| {
      assert Has(c, c.idx, ["comment"]);
      CommentsLeaveNoTrace(ctx, a, c.(idx := c.idx + 1), fuel - 1);
    }
  }

  /** A token all of whose explained spans are comments comes out unchanged, as the one
      token it was. */
  lemma CommentTokenCopied(theme: Theme, a: Annot, parsed: Token, fuel: nat)
    requires parsed.explanation.Some?
    requires forall i :: 0 <= i < |parsed.explanation.value| ==>
      MatchesAny(["comment"], ScopeNames(parsed.explanation.value[i].scopes))
    requires fuel >= |parsed.explanation.value|
    ensures HighlightToken(theme, a, parsed, fuel) == Done((a, [parsed]))
  {
    var subs := GetExplainedSubtokens(parsed).value;
    CommentsLeaveNoTrace(Ctx(parsed, theme), a, Cursor(subs, 0, []), fuel);
  }

  /** The `)` that closes an initialiser's parentheses is emitted twice once output is
      pending for its token: the parentheses state emits it and ends without ending the
      examination, and the assignment state it returns to emits it again. */
  lemma ParenCloseEmittedTwice(ctx: Ctx, a: Annot, c: Cursor, pos: nat)
    requires Ready(ctx, c, pos) && c.idx == pos && |c.out| > 0
    requires TopIs(a, Parens) && Top(Pop(a.stack)) == Some(AssignmentRhs)
    requires Has(c, pos, ["punctuation.section.parens.end.bracket.round"]) && !Has(c, pos, ["comment"])
    requires PlainInAssignment(PopA(a), c, pos)
    ensures var r := Examine(ctx, a, c, pos);
      && r.Continue? && r.c.idx == pos && r.c.subs == c.subs
      && |r.c.out| >= |c.out| + 2
      && r.c.out[|r.c.out| - 1] == CreateNewThemedToken(ctx.owner, c.subs[pos], None)
      && r.c.out[|r.c.out| - 2] == CreateNewThemedToken(ctx.owner, c.subs[pos], None)
  {
    var c1 := EmitC(ctx, c, pos, None).value;
    ParenCloseEndsParens(ctx, a, c, pos);
    PlainAssignmentEmits(ctx, PopA(a), c1, pos);
  }

  /** A subtoken none of the assignment state's own branches claims. */
  predicate PlainInAssignment(a: Annot, c: Cursor, pos: nat)
    requires pos < |c.subs|
  {
    && !Has(c, pos, ["punctuation.terminator.statement"]) && !Has(c, pos, ["punctuation.separator.delimiter"])
    && !Has(c, pos, ["punctuation.section.parens.begin"])
    && !(Ancestor(a.stack, 1) == Some(Template) && Trim(Content(c, pos)) == ">")
    && !Known(a, c, pos) && Trim(Content(c, pos)) != "<"
  }

  /** The first emission: the parentheses state emits the `)`, pops, and falls through. */
  lemma ParenCloseEndsParens(ctx: Ctx, a: Annot, c: Cursor, pos: nat)
    requires Ready(ctx, c, pos) && c.idx == pos && |c.out| > 0
    requires TopIs(a, Parens)
    requires Has(c, pos, ["punctuation.section.parens.end.bracket.round"])
    ensures var r := RunBlocks(EarlyOrder, ctx, a, c, pos);
      r.Fall? && r.a == PopA(a) && r.c == EmitC(ctx, c, pos, None).value
  {
    ParensIsLast(ctx, a, c, pos);
    assert ParensBlock(ctx, a, c, pos) == Fall(PopA(a), EmitC(ctx, c, pos, None).value);
  }

  /** Under `parens` every block but the last one of the chain is idle. */
  lemma ParensIsLast(ctx: Ctx, a: Annot, c: Cursor, pos: nat)
    requires Ready(ctx, c, pos) && c.idx == pos
    requires TopIs(a, Parens)
    ensures RunBlocks(EarlyOrder, ctx, a, c, pos) == ParensBlock(ctx, a, c, pos)
  {
    assert forall b | b in EarlyOrder[..11] :: Top(a.stack) !in Guard(b);
    SkipIdleBlocks(EarlyOrder, 11, ctx, a, c, pos);
    assert EarlyOrder[11..] == [ParensB];
  }

  /** The second emission: the assignment state emits a subtoken none of its branches
      claims, and the examination ends with the bracket handling. */
  lemma PlainAssignmentEmits(ctx: Ctx, a: Annot, c: Cursor, pos: nat)
    requires Ready(ctx, c, pos) && c.idx == pos && |c.out| > 0
    requires TopIs(a, AssignmentRhs) && PlainInAssignment(a, c, pos)
    ensures var c2 := EmitC(ctx, c, pos, None).value;
      LateBlocks(ctx, a, c, pos) == Continue(Brackets(a, c2, pos), c2)
  {
    var c2 := EmitC(ctx, c, pos, None).value;
    assert AssignmentBlock(ctx, a, c, pos) == Fall(a, c2);
  }

  /** Emitting a subtoken with the semantic scope `name`: the new token keeps the
      subtoken's text, and takes its colour and font style from the last theme rule that
      matches `name` under the subtoken's scopes, or keeps the token's own when no rule
      does. */
  lemma EmittedStyle(ctx: Ctx, c: Cursor, pos: nat, name: string)
    requires Ready(ctx, c, pos) && 0 <= c.idx && ctx.owner.explanation.Some?
    ensures var e := EmitC(ctx, c, pos, Some(name));
      && e.Some?
      && var t := e.value.out[|e.value.out| - 1];
         && t.content == Content(c, pos)
         && ((forall i :: 0 <= i < |ctx.theme.settings| ==> !RuleMatches(ctx.theme.settings[i], name, Scopes(c, pos))) ==>
               t.color == ctx.owner.color && t.fontStyle == ctx.owner.fontStyle)
         && ((exists i :: 0 <= i < |ctx.theme.settings| && RuleMatches(ctx.theme.settings[i], name, Scopes(c, pos))) ==>
               exists i :: (0 <= i < |ctx.theme.settings|
                 && RuleMatches(ctx.theme.settings[i], name, Scopes(c, pos))
                 && (forall j :: i < j < |ctx.theme.settings| ==> !RuleMatches(ctx.theme.settings[j], name, Scopes(c, pos)))
                 && t.color == ctx.theme.settings[i].foreground
                 && t.fontStyle == StyleOrNone(ctx.theme.settings[i].fontStyle)))
  {
    ThemedStyleIsLastMatchingRule(ctx.owner, c.subs[pos], NewScope(name, ctx.theme));
  }
}

=== FILE: matcher.dfy ===
/** TextMate scope matching: dot-segmented scope names, selectors with parent
    qualifiers, and the lookup of the theme rules that style a scope. */
module Matcher {
  import opened Wrappers

  /** A theme selector such as `meta.block storage.type`, already split at spaces:
      the last piece is the leaf, the pieces before it are parent qualifiers. */
  datatype Selector = Selector(parents: seq<string>, leaf: string)

  /** One entry of a theme's `settings`. `scope` is `None` when the entry has no scope
      (the theme's default colours); a comma-separated scope string is represented by
      its already-split alternatives. */
  datatype ThemeRule = ThemeRule(scope: Option<seq<Selector>>, foreground: Option<string>, fontStyle: Option<int>)

  datatype Theme = Theme(settings: seq<ThemeRule>)

  /** A selector matches a scope equal to it or any more specific scope below it. */
  predicate MatchesOne(selector: string, scope: string) {
    selector == scope || (|scope| >= |selector| + 1 && scope[..|selector| + 1] == selector + ".")
  }

  /** Does `selector` match some scope of `scopes`? The scopes are tried from the most
      specific (last) to the least specific (first). */
  predicate MatchesSomeScope(selector: string, scopes: seq<string>)
    decreases |scopes|
  {
    |scopes| > 0 && (MatchesOne(selector, scopes[|scopes| - 1]) || MatchesSomeScope(selector, scopes[..|scopes| - 1]))
  }

  /** Does any of `selectors` match any of `scopes`? */
  predicate MatchesAny(selectors: seq<string>, scopes: seq<string>) {
    |selectors| > 0 && (MatchesSomeScope(selectors[0], scopes) || MatchesAny(selectors[1..], scopes))
  }

  /** Greedy right-to-left matching of a selector's parent qualifiers against a scope's
      parent scopes: an actual parent that does not match is skipped. */
  predicate MatchParents(selParents: seq<string>, parents: seq<string>)
    decreases |parents|
  {
    if |selParents| == 0 then true
    else if |parents| == 0 then false
    else if MatchesOne(selParents[|selParents| - 1], parents[|parents| - 1]) then
      MatchParents(selParents[..|selParents| - 1], parents[..|parents| - 1])
    else MatchParents(selParents, parents[..|parents| - 1])
  }

  /** A selector with parent qualifiers matches a scope with parent scopes when its leaf
      matches the scope and its qualifiers match the parents in order. */
  predicate Matches(selector: string, selParents: seq<string>, scope: string, parents: seq<string>) {
    MatchesOne(selector, scope) && MatchParents(selParents, parents)
  }

  /** Does one of the alternatives of `sels` match? */
  predicate SomeSelectorMatches(sels: seq<Selector>, scope: string, parents: seq<string>) {
    |sels| > 0 && (Matches(sels[0].leaf, sels[0].parents, scope, parents) || SomeSelectorMatches(sels[1..], scope, parents))
  }

  /** A theme rule applies when it has a scope and one of its alternatives matches. */
  predicate RuleMatches(rule: ThemeRule, scope: string, parents: seq<string>) {
    rule.scope.Some? && SomeSelectorMatches(rule.scope.value, scope, parents)
  }

  /** The rules of `rules` that apply to `scope`, in declaration order. */
  function ExplainRules(rules: seq<ThemeRule>, scope: string, parents: seq<string>): seq<ThemeRule> {
    if |rules| == 0 then []
    else (if RuleMatches(rules[0], scope, parents) then [rules[0]] else []) + ExplainRules(rules[1..], scope, parents)
  }

  /** The theme rules that apply to `scope` under `parents`, in declaration order. */
  function ExplainThemeScope(theme: Theme, scope: string, parents: seq<string>): seq<ThemeRule> {
    ExplainRules(theme.settings, scope, parents)
  }

  // ---------------------------------------------------------------------------
  // Properties of the matchers

  /** `MatchesOne` is the TextMate prefix order: a selector matches exactly the scope
      itself and the scopes that extend it with a further dot segment. */
  lemma MatchesOneIsDottedPrefix(selector: string, scope: string)
    ensures MatchesOne(selector, scope) <==> scope == selector || exists rest :: scope == selector + "." + rest
  {
    if |scope| >= |selector| + 1 && scope[..|selector| + 1] == selector + "." {
      assert scope == selector + "." + scope[|selector| + 1..];
    }
  }

  /** Matching is transitive: a selector that matches a scope also matches every scope
      that scope matches. */
  lemma MatchesOneTransitive(a: string, b: string, c: string)
    requires MatchesOne(a, b) && MatchesOne(b, c)
    ensures MatchesOne(a, c)
  {
    if a != b && b != c {
      assert c[..|a| + 1] == c[..|b| + 1][..|a| + 1];
    }
  }

  /** Matching is antisymmetric: two scopes that match each other are equal. */
  lemma MatchesOneAntisymmetric(a: string, b: string)
    requires MatchesOne(a, b) && MatchesOne(b, a)
    ensures a == b
  {
  }

  /** `MatchesSomeScope` holds exactly when the selector matches one of the scopes. */
  lemma {:induction false} MatchesSomeScopeExists(selector: string, scopes: seq<string>)
    ensures MatchesSomeScope(selector, scopes) <==> exists j :: 0 <= j < |scopes| && MatchesOne(selector, scopes[j])
    decreases |scopes|
  {
    if |scopes| > 0 {
      var init := scopes[..|scopes| - 1];
      MatchesSomeScopeExists(selector, init);
      assert forall j :: 0 <= j < |init| ==> init[j] == scopes[j];
    }
  }

  /** `MatchesAny` holds exactly when some (selector, scope) pair matches. */
  lemma {:induction false} MatchesAnyExists(selectors: seq<string>, scopes: seq<string>)
    ensures MatchesAny(selectors, scopes) <==>
      exists i, j :: 0 <= i < |selectors| && 0 <= j < |scopes| && MatchesOne(selectors[i], scopes[j])
  {
    if |selectors| > 0 {
      MatchesSomeScopeExists(selectors[0], scopes);
      MatchesAnyExists(selectors[1..], scopes);
      if exists i, j :: 0 <= i < |selectors| && 0 <= j < |scopes| && MatchesOne(selectors[i], scopes[j]) {
        var i, j :| 0 <= i < |selectors| && 0 <= j < |scopes| && MatchesOne(selectors[i], scopes[j]);
        if i > 0 {
          assert selectors[1..][i - 1] == selectors[i];
        }
      }
    }
  }

  /** `ix` places the selector qualifiers `sel` on strictly increasing positions of
      `parents`, each on a parent it matches. */
  ghost predicate IsEmbedding(sel: seq<string>, parents: seq<string>, ix: seq<int>) {
    && |ix| == |sel|
    && (forall i :: 0 <= i < |ix| ==> 0 <= ix[i] < |parents| && MatchesOne(sel[i], parents[ix[i]]))
    && (forall i, j :: 0 <= i < j < |ix| ==> ix[i] < ix[j])
  }

  /** An ordered placement of the qualifiers makes the greedy scan succeed. */
  lemma {:induction false} EmbeddingGivesMatch(sel: seq<string>, parents: seq<string>, ix: seq<int>)
    requires IsEmbedding(sel, parents, ix)
    ensures MatchParents(sel, parents)
    decreases |parents|
  {
    if |sel| > 0 {
      var m := ix[|ix| - 1];
      var n := |parents| - 1;
      if MatchesOne(sel[|sel| - 1], parents[n]) {
        forall k | 0 <= k < |ix| - 1 ensures ix[k] < m {}
        EmbeddingGivesMatch(sel[..|sel| - 1], parents[..n], ix[..|ix| - 1]);
      } else {
        assert m < n;
        EmbeddingGivesMatch(sel, parents[..n], ix);
      }
    }
  }

  /** A successful greedy scan yields an ordered placement of the qualifiers. */
  lemma {:induction false} MatchGivesEmbedding(sel: seq<string>, parents: seq<string>) returns (ix: seq<int>)
    requires MatchParents(sel, parents)
    ensures IsEmbedding(sel, parents, ix)
    decreases |parents|
  {
    if |sel| == 0 {
      ix := [];
    } else {
      var n := |parents| - 1;
      if MatchesOne(sel[|sel| - 1], parents[n]) {
        var prefix := MatchGivesEmbedding(sel[..|sel| - 1], parents[..n]);
        ix := prefix + [n];
      } else {
        ix := MatchGivesEmbedding(sel, parents[..n]);
      }
    }
  }

  /** The greedy right-to-left scan succeeds exactly when the qualifiers match an ordered,
      not necessarily contiguous, subsequence of the actual parents. */
  lemma MatchParentsIffEmbedding(sel: seq<string>, parents: seq<string>)
    ensures MatchParents(sel, parents) <==> exists ix :: IsEmbedding(sel, parents, ix)
  {
    if MatchParents(sel, parents) {
      var ix := MatchGivesEmbedding(sel, parents);
    }
    forall ix | IsEmbedding(sel, parents, ix) ensures MatchParents(sel, parents) {
      EmbeddingGivesMatch(sel, parents, ix);
    }
  }

  /** Without parent qualifiers, `Matches` is `MatchesOne`. */
  lemma MatchesWithoutParents(selector: string, scope: string, parents: seq<string>)
    ensures Matches(selector, [], scope, parents) <==> MatchesOne(selector, scope)
  {
  }

  /** `ix` lists, in increasing order, exactly the positions of `rules` that apply to
      `scope`, and `r` holds the rules at those positions. */
  ghost predicate SelectsMatching(rules: seq<ThemeRule>, scope: string, parents: seq<string>, r: seq<ThemeRule>, ix: seq<int>) {
    && |ix| == |r|
    && (forall k :: 0 <= k < |ix| ==> 0 <= ix[k] < |rules| && r[k] == rules[ix[k]])
    && (forall k, l :: 0 <= k < l < |ix| ==> ix[k] < ix[l])
    && (forall i :: 0 <= i < |rules| ==> (RuleMatches(rules[i], scope, parents) <==> i in ix))
  }

  /** The rules found for a scope are the applying theme rules, each once, in theme
      order; `ix` are their positions. */
  lemma {:induction false} ExplainRulesPositions(rules: seq<ThemeRule>, scope: string, parents: seq<string>) returns (ix: seq<int>)
    ensures SelectsMatching(rules, scope, parents, ExplainRules(rules, scope, parents), ix)
  {
    var r := ExplainRules(rules, scope, parents);
    if |rules| == 0 {
      ix := [];
    } else {
      var tail := rules[1..];
      var tix := ExplainRulesPositions(tail, scope, parents);
      var tr := ExplainRules(tail, scope, parents);
      var shifted := seq(|tix|, k requires 0 <= k < |tix| => tix[k] + 1);
      ShiftedPositions(rules, scope, parents, tr, tix, shifted);
      if RuleMatches(rules[0], scope, parents) {
        ix := [0] + shifted;
        assert r == [rules[0]] + tr;
        PrependPosition(rules, scope, parents, tr, shifted);
      } else {
        ix := shifted;
        assert r == tr;
        forall i | 0 <= i < |rules| ensures RuleMatches(rules[i], scope, parents) <==> i in ix {
          if i == 0 {
            assert forall k :: 0 <= k < |shifted| ==> shifted[k] != 0;
          }
        }
      }
    }
  }

  /** A matching first rule goes in front of the rules found in the rest of the theme. */
  lemma PrependPosition(rules: seq<ThemeRule>, scope: string, parents: seq<string>, tr: seq<ThemeRule>, shifted: seq<int>)
    requires |rules| > 0 && RuleMatches(rules[0], scope, parents)
    requires |shifted| == |tr|
    requires forall k :: 0 <= k < |shifted| ==> 1 <= shifted[k] < |rules| && tr[k] == rules[shifted[k]]
    requires forall k, l :: 0 <= k < l < |shifted| ==> shifted[k] < shifted[l]
    requires forall i :: 1 <= i < |rules| ==> (RuleMatches(rules[i], scope, parents) <==> i in shifted)
    ensures SelectsMatching(rules, scope, parents, [rules[0]] + tr, [0] + shifted)
  {
    var ix := [0] + shifted;
    var r := [rules[0]] + tr;
    forall k | 0 <= k < |ix| ensures 0 <= ix[k] < |rules| && r[k] == rules[ix[k]] {
      if k > 0 {
        assert ix[k] == shifted[k - 1] && r[k] == tr[k - 1];
      }
    }
    forall k, l | 0 <= k < l < |ix| ensures ix[k] < ix[l] {
      assert ix[l] == shifted[l - 1];
      if k > 0 {
        assert ix[k] == shifted[k - 1];
      }
    }
    forall i | 0 <= i < |rules| ensures RuleMatches(rules[i], scope, parents) <==> i in ix {
      if i > 0 {
        assert i in ix <==> i in shifted;
      }
    }
  }

  /** Positions in `rules[1..]` shifted by one are positions in `rules`. */
  lemma ShiftedPositions(rules: seq<ThemeRule>, scope: string, parents: seq<string>, tr: seq<ThemeRule>, tix: seq<int>, shifted: seq<int>)
    requires |rules| > 0
    requires SelectsMatching(rules[1..], scope, parents, tr, tix)
    requires |shifted| == |tix| && forall k :: 0 <= k < |tix| ==> shifted[k] == tix[k] + 1
    ensures |shifted| == |tr|
    ensures forall k :: 0 <= k < |shifted| ==> 1 <= shifted[k] < |rules| && tr[k] == rules[shifted[k]]
    ensures forall k, l :: 0 <= k < l < |shifted| ==> shifted[k] < shifted[l]
    ensures forall i :: 1 <= i < |rules| ==> (RuleMatches(rules[i], scope, parents) <==> i in shifted)
  {
    forall i | 1 <= i < |rules| ensures RuleMatches(rules[i], scope, parents) <==> i in shifted {
      assert rules[1..][i - 1] == rules[i];
      if i - 1 in tix {
        var k :| 0 <= k < |tix| && tix[k] == i - 1;
        assert shifted[k] == i;
      }
      if i in shifted {
        var k :| 0 <= k < |shifted| && shifted[k] == i;
        assert tix[k] == i - 1;
      }
    }
  }

  /** The rules found for a scope are the applying theme rules, each once, in theme order. */
  lemma ExplainThemeScopeIsOrderedFilter(theme: Theme, scope: string, parents: seq<string>)
    ensures exists ix :: SelectsMatching(theme.settings, scope, parents, ExplainThemeScope(theme, scope, parents), ix)
  {
    var ix := ExplainRulesPositions(theme.settings, scope, parents);
    assert SelectsMatching(theme.settings, scope, parents, ExplainThemeScope(theme, scope, parents), ix);
  }

  /** The last rule found for a scope is the applying rule declared last in the theme. */
  lemma LastExplainedIsLastMatching(theme: Theme, scope: string, parents: seq<string>)
    requires |ExplainThemeScope(theme, scope, parents)| > 0
    ensures exists i :: (0 <= i < |theme.settings|
      && ExplainThemeScope(theme, scope, parents)[|ExplainThemeScope(theme, scope, parents)| - 1] == theme.settings[i]
      && RuleMatches(theme.settings[i], scope, parents)
      && forall j :: i < j < |theme.settings| ==> !RuleMatches(theme.settings[j], scope, parents))
  {
    var r := ExplainThemeScope(theme, scope, parents);
    var ix := ExplainRulesPositions(theme.settings, scope, parents);
    var i := ix[|ix| - 1];
    assert i in ix;
    forall j | i < j < |theme.settings| ensures j !in ix {
      forall k | 0 <= k < |ix| ensures ix[k] <= i {
        if k < |ix| - 1 {
          assert ix[k] < ix[|ix| - 1];
        }
      }
    }
  }

  /** No rule applies to a scope exactly when no theme rule matches it. */
  lemma NothingExplainedIffNoMatch(theme: Theme, scope: string, parents: seq<string>)
    ensures |ExplainThemeScope(theme, scope, parents)| == 0 <==>
      forall i :: 0 <= i < |theme.settings| ==> !RuleMatches(theme.settings[i], scope, parents)
  {
    var r := ExplainThemeScope(theme, scope, parents);
    var ix := ExplainRulesPositions(theme.settings, scope, parents);
    if |r| > 0 {
      assert ix[0] in ix;
    }
  }
}

=== FILE: strings.dfy ===
/** Small value types and the JavaScript string operations the highlighter relies on:
    `trim`, `split(' ')[0]`, `indexOf` and the clamping `substring`. */
module Wrappers {

  /** An optional value; `None` stands for JavaScript's `undefined`. */
  datatype Option<+T> = None | Some(value: T)
}

module Strings {

  /** The single white-space and line-terminator characters JavaScript's
      `String.prototype.trim` removes; the range U+2000..U+200A is the rest. */
  const SpaceChars: set<char> := {
    ' ', '\t', '\n', '\r', '\U{0B}', '\U{0C}', '\U{A0}', '\U{FEFF}', '\U{1680}',
    '\U{2028}', '\U{2029}', '\U{202F}', '\U{205F}', '\U{3000}' }

  /** The characters `trim` removes. */
  predicate IsSpace(c: char) {
    c in SpaceChars || '\U{2000}' <= c <= '\U{200A}'
  }

  /** The first position at or after `from` that does not hold white space, or `|s|`. */
  function SkipSpace(s: string, from: nat): (k: nat)
    requires from <= |s|
    ensures from <= k <= |s|
    decreases |s| - from
  {
    if from < |s| && IsSpace(s[from]) then SkipSpace(s, from + 1) else from
  }

  /** The end of `s[lo..hi]` once its trailing white space is dropped. */
  function SkipSpaceBack(s: string, lo: nat, hi: nat): (k: nat)
    requires lo <= hi <= |s|
    ensures lo <= k <= hi
    decreases hi
  {
    if hi > lo && IsSpace(s[hi - 1]) then SkipSpaceBack(s, lo, hi - 1) else hi
  }

  /** `SkipSpace` steps over white space only and stops at the first other character. */
  lemma {:induction false} SkipSpaceStops(s: string, from: nat)
    requires from <= |s|
    ensures forall i | from <= i < SkipSpace(s, from) :: IsSpace(s[i])
    ensures SkipSpace(s, from) < |s| ==> !IsSpace(s[SkipSpace(s, from)])
    decreases |s| - from
  {
    if from < |s| && IsSpace(s[from]) {
      SkipSpaceStops(s, from + 1);
    }
  }

  /** `SkipSpaceBack` steps back over white space only and stops after the last other
      character. */
  lemma {:induction false} SkipSpaceBackStops(s: string, lo: nat, hi: nat)
    requires lo <= hi <= |s|
    ensures forall i | SkipSpaceBack(s, lo, hi) <= i < hi :: IsSpace(s[i])
    ensures lo < SkipSpaceBack(s, lo, hi) ==> !IsSpace(s[SkipSpaceBack(s, lo, hi) - 1])
    decreases hi
  {
    if hi > lo && IsSpace(s[hi - 1]) {
      SkipSpaceBackStops(s, lo, hi - 1);
    }
  }

  /** How many white-space characters `trim` removes from the front of `s`. */
  function TrimLead(s: string): nat {
    SkipSpace(s, 0)
  }

  /** JavaScript's `s.trim()`: the slice of `s` that starts at `TrimLead(s)`. */
  function Trim(s: string): (r: string)
    ensures TrimLead(s) + |r| <= |s| && r == s[TrimLead(s)..TrimLead(s) + |r|]
  {
    s[TrimLead(s)..SkipSpaceBack(s, TrimLead(s), |s|)]
  }

  /** What `trim` keeps has no white space at either end, and everything it drops is
      white space. */
  lemma TrimRemovesOnlySpace(s: string)
    ensures var r := Trim(s);
      && (|r| > 0 ==> !IsSpace(r[0]) && !IsSpace(r[|r| - 1]))
      && (forall i | 0 <= i < TrimLead(s) :: IsSpace(s[i]))
      && (forall i | TrimLead(s) + |r| <= i < |s| :: IsSpace(s[i]))
  {
    SkipSpaceStops(s, 0);
    SkipSpaceBackStops(s, TrimLead(s), |s|);
  }

  /** JavaScript's `s.split(' ')[0]`: everything before the first space character. */
  function FirstWord(s: string): (w: string)
    ensures |w| <= |s| && w == s[..|w|]
    ensures ' ' !in w
    ensures |w| < |s| ==> s[|w|] == ' '
  {
    if |s| == 0 || s[0] == ' ' then "" else [s[0]] + FirstWord(s[1..])
  }

  /** A string without a space is its own first word. */
  lemma {:induction false} FirstWordOfWord(s: string)
    requires ' ' !in s
    ensures FirstWord(s) == s
  {
    if |s| > 0 {
      assert ' ' !in s[1..];
      FirstWordOfWord(s[1..]);
    }
  }

  /** Does `pat` occur in `s` starting at position `i`? */
  predicate OccursAt(s: string, pat: string, i: int) {
    0 <= i && i + |pat| <= |s| && s[i..i + |pat|] == pat
  }

  /** The first occurrence of `pat` in `s` at or after `from`, or -1. */
  function IndexFrom(s: string, pat: string, from: nat): (r: int)
    ensures r == -1 || (from <= r && OccursAt(s, pat, r))
    ensures forall i | from <= i && (r == -1 || i < r) :: !OccursAt(s, pat, i)
    decreases |s| - from
  {
    if from + |pat| > |s| then -1
    else if s[from..from + |pat|] == pat then from
    else IndexFrom(s, pat, from + 1)
  }

  /** JavaScript's `s.indexOf(pat)`: the first position where `pat` occurs, or -1. */
  function IndexOf(s: string, pat: string): (r: int)
    ensures r == -1 || OccursAt(s, pat, r)
    ensures forall i | 0 <= i && (r == -1 || i < r) :: !OccursAt(s, pat, i)
  {
    IndexFrom(s, pat, 0)
  }

  /** JavaScript's `substring` clamps its argument into `[0, |s|]`. */
  function Clamp(i: int, s: string): (k: nat)
    ensures k <= |s|
    ensures 0 <= i <= |s| ==> k == i
  {
    if i < 0 then 0 else if i > |s| then |s| else i
  }

  /** JavaScript's `s.substring(i)`. */
  function SubstringFrom(s: string, i: int): string {
    s[Clamp(i, s)..]
  }

  /** JavaScript's `s.substring(0, i)`. */
  function SubstringTo(s: string, i: int): string {
    s[..Clamp(i, s)]
  }

  /** The two halves `substring` cuts a string into always put it back together. */
  lemma SubstringHalves(s: string, i: int)
    ensures SubstringTo(s, i) + SubstringFrom(s, i) == s
  {
  }

  /** The first word of a trimmed string sits right after the leading white space, and
      that is also where `indexOf` finds it first. */
  lemma FirstWordPosition(c: string)
    requires FirstWord(Trim(c)) != ""
    ensures OccursAt(c, FirstWord(Trim(c)), TrimLead(c))
    ensures IndexOf(c, FirstWord(Trim(c))) == TrimLead(c)
  {
    var t := Trim(c);
    var w := FirstWord(t);
    var lead := TrimLead(c);
    TrimRemovesOnlySpace(c);
    assert c[lead..lead + |w|] == t[..|w|];
    assert OccursAt(c, w, lead);
    assert w[0] == t[0] && !IsSpace(w[0]);
    assert forall i | 0 <= i < lead :: !OccursAt(c, w, i);
  }
}

=== FILE: symbols.dfy ===
/** The annotator's pushdown stack of semantic scopes. */
module ScopeStacks {
  import opened Wrappers

  /** The states of the annotator. `TypeScope` (`'type'` in `semantichighlight.ts`) is declared but
      never pushed. */
  datatype SemanticScope =
    | Source | VarDef | AssignmentRhs | FunctionHead | FunctionBody | Parens | Block
    | Namespace | Template | TypeName | TypeDef | TemplateSpec | Cast | Structure
    | StructName | ArrayIdx | TypeScope

  /** The stack array and the depth counter, kept separately as `semantichighlight.ts` does: `pop`
      on an empty array leaves it empty but still decrements `depth`, after which the
      two no longer agree. */
  datatype ScopeStack = ScopeStack(stack: seq<SemanticScope>, depth: int)

  /** The fresh stack holds only `Source`, at depth 0. */
  const Initial: ScopeStack := ScopeStack([Source], 0)

  /** The depth counter agrees with the array. */
  predicate InStep(s: ScopeStack) {
    s.depth == |s.stack| - 1
  }

  function Push(s: ScopeStack, scope: SemanticScope): (r: ScopeStack)
    ensures |r.stack| == |s.stack| + 1 && r.stack[|s.stack|] == scope && r.stack[..|s.stack|] == s.stack
    ensures r.depth == s.depth + 1
  {
    ScopeStack(s.stack + [scope], s.depth + 1)
  }

  function Pop(s: ScopeStack): (r: ScopeStack)
    ensures |s.stack| > 0 ==> r.stack == s.stack[..|s.stack| - 1]
    ensures |s.stack| == 0 ==> r.stack == []
    ensures r.depth == s.depth - 1
  {
    ScopeStack(if |s.stack| > 0 then s.stack[..|s.stack| - 1] else s.stack, s.depth - 1)
  }

  /** The entry `k` places below the one `depth` designates, or `None` (JavaScript's
      `undefined`) when that position is outside the array. On a stack in step this is
      the entry `k` places below the top of the array, and there is one exactly when the
      array is more than `k` deep. */
  function Ancestor(s: ScopeStack, k: int): (r: Option<SemanticScope>)
    ensures InStep(s) ==> (r.Some? <==> 0 <= k < |s.stack|)
    ensures InStep(s) && 0 <= k < |s.stack| ==> r == Some(s.stack[|s.stack| - 1 - k])
  {
    if 0 <= s.depth - k < |s.stack| then Some(s.stack[s.depth - k]) else None
  }

  /** The scope at the top of the stack. */
  function Top(s: ScopeStack): (r: Option<SemanticScope>)
    ensures InStep(s) && |s.stack| > 0 ==> r == Some(s.stack[|s.stack| - 1])
    ensures InStep(s) && |s.stack| == 0 ==> r.None?
  {
    if 0 <= s.depth < |s.stack| then Some(s.stack[s.depth]) else None
  }

  /** `ancestor(0)` is `top()`. */
  lemma AncestorZeroIsTop(s: ScopeStack)
    ensures Ancestor(s, 0) == Top(s)
  {
  }

  /** The fresh stack is in step, at depth 0, with `Source` on top. */
  lemma InitialStack()
    ensures InStep(Initial) && Initial.depth == 0 && Top(Initial) == Some(Source)
  {
  }

  /** A push is seen at the top and keeps the stack in step. */
  lemma PushThenTop(s: ScopeStack, scope: SemanticScope)
    requires InStep(s)
    ensures InStep(Push(s, scope)) && Top(Push(s, scope)) == Some(scope)
    ensures Ancestor(Push(s, scope), 1) == (if |s.stack| > 0 then Top(s) else None)
  {
  }

  /** A pop undoes a push, whatever state the stack was in. */
  lemma PopUndoesPush(s: ScopeStack, scope: SemanticScope)
    ensures Pop(Push(s, scope)) == s
  {
    assert (s.stack + [scope])[..|s.stack|] == s.stack;
  }

  /** A pop keeps the stack in step unless the array is already empty; popping the
      last entry leaves no top. */
  lemma PopInStep(s: ScopeStack)
    requires InStep(s)
    ensures |s.stack| > 0 <==> InStep(Pop(s))
    ensures |s.stack| == 1 ==> Top(Pop(s)).None?
  {
  }
}

/** The symbol table: the learned type names and the stack of template-parameter lists,
    with the helpers that query and update them. */
module Symbols {
  import opened Wrappers
  import opened Strings
  import opened Tokens
  import opened ScopeStacks

  /** The word a type lookup is about: the first space-delimited word of the trimmed text. */
  function TypeWord(content: string): string {
    FirstWord(Trim(content))
  }

  /** `name` is in one of the levels of `templateParameters`. */
  predicate InSomeLevel(name: string, templateParameters: seq<seq<string>>) {
    exists k :: 0 <= k < |templateParameters| && name in templateParameters[k]
  }

  /** `content` starts with a learned type or with a template parameter visible at any
      level of the template-parameter stack. */
  predicate IsKnownType(content: string, learnedTypes: seq<string>, templateParameters: seq<seq<string>>) {
    TypeWord(content) in learnedTypes || InSomeLevel(TypeWord(content), templateParameters)
  }

  /** Search the template-parameter levels in order for `name`. */
  function SearchLevels(name: string, templateParameters: seq<seq<string>>): (found: bool)
    ensures found <==> InSomeLevel(name, templateParameters)
  {
    if |templateParameters| == 0 then false
    else if name in templateParameters[0] then true
    else
      assert forall k :: 1 <= k < |templateParameters| ==> templateParameters[k] == templateParameters[1..][k - 1];
      SearchLevels(name, templateParameters[1..])
  }

  /** The known type `content` starts with, or `""` when it starts with none. */
  function GetKnownType(content: string, learnedTypes: seq<string>, templateParameters: seq<seq<string>>): (r: string)
    ensures IsKnownType(content, learnedTypes, templateParameters) ==> r == TypeWord(content)
    ensures !IsKnownType(content, learnedTypes, templateParameters) ==> r == ""
  {
    var t := TypeWord(content);
    if t in learnedTypes then t
    else if SearchLevels(t, templateParameters) then t
    else ""
  }

  /** Apart from the degenerate empty word, `isKnownType` and `getKnownType` agree: the
      text is known exactly when the lookup returns its first word. */
  lemma KnownTypeAgreement(content: string, learnedTypes: seq<string>, templateParameters: seq<seq<string>>)
    requires TypeWord(content) != ""
    ensures IsKnownType(content, learnedTypes, templateParameters) <==>
      GetKnownType(content, learnedTypes, templateParameters) == TypeWord(content)
    ensures !IsKnownType(content, learnedTypes, templateParameters) <==>
      GetKnownType(content, learnedTypes, templateParameters) == ""
  {
  }

  /** Record a learned type name, trimmed. The list only grows; a duplicate is simply
      appended again. */
  function LearnType(newType: string, learnedTypes: seq<string>): (r: seq<string>)
    ensures |r| == |learnedTypes| + 1 && r[..|learnedTypes|] == learnedTypes
    ensures r[|learnedTypes|] == Trim(newType)
    ensures Trim(newType) in r
  {
    learnedTypes + [Trim(newType)]
  }

  /** After learning a single word, text starting with that word is a known type; what
      was known stays known. */
  lemma LearnTypeMakesKnown(newType: string, content: string, learnedTypes: seq<string>, templateParameters: seq<seq<string>>)
    requires TypeWord(content) == Trim(newType)
    ensures IsKnownType(content, LearnType(newType, learnedTypes), templateParameters)
  {
  }

  /** Learning a trimmed single word makes that very word a known type. */
  lemma LearnWordIsKnown(newType: string, learnedTypes: seq<string>, templateParameters: seq<seq<string>>)
    requires Trim(newType) != "" && ' ' !in Trim(newType)
    ensures IsKnownType(newType, LearnType(newType, learnedTypes), templateParameters)
    ensures |LearnType(newType, learnedTypes)| == |learnedTypes| + 1
  {
    FirstWordOfWord(Trim(newType));
  }

  /** Learning never forgets a type. */
  lemma LearnTypeKeepsKnown(newType: string, content: string, learnedTypes: seq<string>, templateParameters: seq<seq<string>>)
    requires IsKnownType(content, learnedTypes, templateParameters)
    ensures IsKnownType(content, LearnType(newType, learnedTypes), templateParameters)
  {
  }

  /** JavaScript's `Array.prototype.pop`: drop the last element, if any. */
  function PopLast<T>(s: seq<T>): (r: seq<T>)
    ensures |s| > 0 ==> r == s[..|s| - 1]
    ensures |s| == 0 ==> r == []
  {
    if |s| > 0 then s[..|s| - 1] else s
  }

  /** When the top of the stack is `Template`, pop it together with the innermost
      template-parameter list; otherwise change neither. On a stack in step, exactly the
      `Template` entry and the innermost parameter list (when there is one) go. */
  function MaybePopTemplate(stack: ScopeStack, templateParameters: seq<seq<string>>): (r: (ScopeStack, seq<seq<string>>))
    ensures Top(stack) != Some(Template) ==> r == (stack, templateParameters)
    ensures InStep(stack) && Top(stack) == Some(Template) ==>
      && r.0.stack + [Template] == stack.stack && r.0.depth == stack.depth - 1
      && (|templateParameters| > 0 ==> r.1 + [templateParameters[|templateParameters| - 1]] == templateParameters)
      && (|templateParameters| == 0 ==> r.1 == [])
  {
    if Top(stack) == Some(Template) then (Pop(stack), PopLast(templateParameters)) else (stack, templateParameters)
  }

  /** On a stack in step, popping a template shrinks the scope stack and, when there is
      one, the template-parameter stack by exactly one level, and keeps the stack in step. */
  lemma MaybePopTemplateInStep(stack: ScopeStack, templateParameters: seq<seq<string>>)
    requires InStep(stack)
    ensures var (s, tp) := MaybePopTemplate(stack, templateParameters);
      && InStep(s)
      && (Top(stack) == Some(Template) <==> |s.stack| == |stack.stack| - 1)
      && (Top(stack) == Some(Template) && |templateParameters| > 0 <==> |tp| == |templateParameters| - 1)
  {
  }

  /** The number of `Template` entries on a stack array. */
  function Templates(s: seq<SemanticScope>): nat {
    if s == [] then 0 else Templates(s[..|s| - 1]) + (if s[|s| - 1] == Template then 1 else 0)
  }

  /** `maybePopTemplate` does not keep one parameter list per `template` entry: it takes the
      innermost list whether or not the popped entry's clause pushed it. On the stack of
      `template <typename T> struct A { template <typename> void f() {} ... }` at the
      function body's `}` (after the body itself was popped), two `template` entries share
      A's one list, and afterwards a `template` entry is left with no list at all. */
  lemma MaybePopTemplateDrifts()
    ensures var stack := ScopeStack([Source, Template, VarDef, Structure, Template], 4);
      var (s, tp) := MaybePopTemplate(stack, [["T"]]);
      && InStep(stack) && Templates(stack.stack) == 2
      && InStep(s) && Templates(s.stack) == 1 && tp == []
  {
    var s4 := [Source, Template, VarDef, Structure];
    assert [Source, Template, VarDef, Structure, Template][..4] == s4;
    assert s4[..3] == [Source, Template, VarDef];
    assert [Source, Template, VarDef][..2] == [Source, Template];
    assert [Source, Template][..1] == [Source];
    assert [Source][..0] == [];
    assert Templates([Source]) == 0;
    assert Templates([Source, Template]) == 1;
    assert Templates(s4) == 1;
  }

  /** What `splitTypeToken` produces: the updated subtoken list and its return value,
      where `Some("")` reports a split, `Some(w)` the first word when no type is known,
      and `None` the unreachable "type not found" error. */
  datatype TypeSplit = TypeSplit(subs: seq<Subtoken>, unsplit: Option<string>)

  /** A known type word sits right after the leading white space of the text, which is
      also where `indexOf` finds it first. */
  lemma KnownTypeSplitPoint(c: string, t: string)
    requires t != "" && t == TypeWord(c)
    ensures IndexOf(c, t) == TrimLead(c) && TrimLead(c) + |t| <= |c|
    ensures c[..TrimLead(c) + |t|] == c[..TrimLead(c)] + t
  {
    FirstWordPosition(c);
  }

  /** Where a known type word ends in a subtoken's text: after the leading white space and
      the word. */
  function TypeEnd(content: string, learnedTypes: seq<string>, templateParameters: seq<seq<string>>): int {
    TrimLead(content) + |GetKnownType(content, learnedTypes, templateParameters)|
  }

  /** When the subtoken at `pos` starts with a known type, split it right after the type's
      first occurrence; otherwise report its first word and leave the list alone. */
  function SplitTypeToken(subs: seq<Subtoken>, pos: nat, learnedTypes: seq<string>, templateParameters: seq<seq<string>>): (r: TypeSplit)
    requires pos < |subs|
    ensures r.unsplit.Some?
    ensures GetKnownType(subs[pos].content, learnedTypes, templateParameters) == "" ==>
      r == TypeSplit(subs, Some(TypeWord(subs[pos].content)))
    ensures GetKnownType(subs[pos].content, learnedTypes, templateParameters) != "" ==>
      r == TypeSplit(SplitTokenAtIndex(subs, pos, TypeEnd(subs[pos].content, learnedTypes, templateParameters)), Some(""))
  {
    var c := subs[pos].content;
    var t := GetKnownType(c, learnedTypes, templateParameters);
    if t == "" then TypeSplit(subs, Some(TypeWord(c)))
    else
      KnownTypeSplitPoint(c, t);
      var typeIdx := IndexOf(c, t);
      if typeIdx < 0 then assert false; TypeSplit(subs, None)
      else
        assert typeIdx + |t| == TypeEnd(c, learnedTypes, templateParameters);
        TypeSplit(SplitTokenAtIndex(subs, pos, typeIdx + |t|), Some(""))
  }

  /** A text that starts with a known type is split right after that type word. */
  lemma SplitTypeTokenSplitsAfterWord(subs: seq<Subtoken>, pos: nat, learnedTypes: seq<string>, templateParameters: seq<seq<string>>)
    requires pos < |subs|
    requires IsKnownType(subs[pos].content, learnedTypes, templateParameters)
    requires TypeWord(subs[pos].content) != ""
    ensures SplitTypeToken(subs, pos, learnedTypes, templateParameters) ==
      TypeSplit(SplitTokenAtIndex(subs, pos, TrimLead(subs[pos].content) + |TypeWord(subs[pos].content)|), Some(""))
  {
    assert GetKnownType(subs[pos].content, learnedTypes, templateParameters) == TypeWord(subs[pos].content);
  }

  /** After a successful type split the subtoken holds exactly its leading white space
      and the type word, and the text the list covers is unchanged. */
  lemma SplitTypeTokenLeavesType(subs: seq<Subtoken>, pos: nat, learnedTypes: seq<string>, templateParameters: seq<seq<string>>)
    requires pos < |subs|
    requires IsKnownType(subs[pos].content, learnedTypes, templateParameters)
    requires TypeWord(subs[pos].content) != ""
    ensures SplitTypeToken(subs, pos, learnedTypes, templateParameters).unsplit == Some("")
    ensures |SplitTypeToken(subs, pos, learnedTypes, templateParameters).subs| > pos
    ensures SplitTypeToken(subs, pos, learnedTypes, templateParameters).subs[pos].content ==
      subs[pos].content[..TrimLead(subs[pos].content)] + TypeWord(subs[pos].content)
    ensures Text(SplitTypeToken(subs, pos, learnedTypes, templateParameters).subs) == Text(subs)
  {
    var c := subs[pos].content;
    var t := TypeWord(c);
    var i := TrimLead(c) + |t|;
    SplitTypeTokenSplitsAfterWord(subs, pos, learnedTypes, templateParameters);
    var r := SplitTypeToken(subs, pos, learnedTypes, templateParameters);
    assert r.subs == SplitTokenAtIndex(subs, pos, i);
    assert i <= |c| && c[..i] == c[..TrimLead(c)] + t by {
      KnownTypeSplitPoint(c, t);
    }
    assert r.subs[pos].content == c[..i] by {
      SplitLeftPiece(subs, pos, i);
    }
    assert Text(r.subs) == Text(subs) by {
      SplitKeepsText(subs, pos, i);
    }
  }

  /** A type split keeps the subtoken at `pos` (with its scopes), the text the list covers
      and every explanation index. */
  lemma SplitTypeTokenKeeps(owner: Token, subs: seq<Subtoken>, pos: nat, learnedTypes: seq<string>, templateParameters: seq<seq<string>>)
    requires pos < |subs| && WellIndexed(owner, subs)
    ensures var r := SplitTypeToken(subs, pos, learnedTypes, templateParameters).subs;
      && |r| > pos && r[pos].scopes == subs[pos].scopes
      && Text(r) == Text(subs)
      && WellIndexed(owner, r)
  {
    if GetKnownType(subs[pos].content, learnedTypes, templateParameters) != "" {
      var k := TypeEnd(subs[pos].content, learnedTypes, templateParameters);
      SplitKeepsText(subs, pos, k);
      SplitKeepsIndices(owner, subs, pos, k);
    }
  }
}

=== FILE: tokens.dfy ===
/** Themed tokens as the TextMate tokenizer delivers them, the explained subtokens the
    annotator walks over, and the pure helpers that split subtokens and rebuild tokens. */
module Tokens {
  import opened Wrappers
  import opened Strings
  import opened Matcher

  /** One scope of an explanation and the theme rules that matched it. */
  datatype ScopeEntry = ScopeEntry(scopeName: string, themeMatches: seq<ThemeRule>)

  /** A span of a token's text with the scopes that apply to it, least specific first. */
  datatype Explanation = Explanation(content: string, scopes: seq<ScopeEntry>)

  /** A themed token. `explanation` is `None` when the tokenizer was not asked to explain
      its matches. `fontStyle` is the tokenizer's numeric style code, 0 meaning none. */
  datatype Token = Token(content: string, offset: int, color: Option<string>, fontStyle: int, explanation: Option<seq<Explanation>>)

  /** One explanation of a token lifted out for the annotator: its (possibly split) text,
      its scope names, and the position of the explanation it came from. Every subtoken
      of one list belongs to the same token, which the functions below take explicitly. */
  datatype Subtoken = Subtoken(content: string, scopes: seq<string>, index: nat)

  /** The name of the semantic scope a rebuilt token gains, with the theme it is looked
      up in. */
  datatype NewScope = NewScope(name: string, theme: Theme)

  /** The names of a list of scope entries, in order. */
  function ScopeNames(entries: seq<ScopeEntry>): (names: seq<string>)
    ensures |names| == |entries|
    ensures forall i :: 0 <= i < |entries| ==> names[i] == entries[i].scopeName
  {
    seq(|entries|, i requires 0 <= i < |entries| => entries[i].scopeName)
  }

  /** The text a list of subtokens covers. */
  function Text(subs: seq<Subtoken>): string
    decreases |subs|
  {
    if |subs| == 0 then "" else Text(subs[..|subs| - 1]) + subs[|subs| - 1].content
  }

  /** The text of two lists put together is the two texts put together. */
  lemma {:induction false} TextAppend(a: seq<Subtoken>, b: seq<Subtoken>)
    ensures Text(a + b) == Text(a) + Text(b)
    decreases |b|
  {
    if |b| == 0 {
      assert a + b == a;
    } else {
      assert (a + b)[..|a + b| - 1] == a + b[..|b| - 1];
      TextAppend(a, b[..|b| - 1]);
    }
  }

  /** The text a list of explanations covers. */
  function ExplainedText(expl: seq<Explanation>): string
    decreases |expl|
  {
    if |expl| == 0 then "" else ExplainedText(expl[..|expl| - 1]) + expl[|expl| - 1].content
  }

  /** Every subtoken refers to an explanation that `owner` has. */
  predicate WellIndexed(owner: Token, subs: seq<Subtoken>) {
    forall i :: 0 <= i < |subs| ==> (owner.explanation.Some? ==> subs[i].index < |owner.explanation.value|)
  }

  /** The explained subtokens of a token, one per explanation, or `None` when the token
      carries no explanation. */
  function GetExplainedSubtokens(token: Token): (r: Option<seq<Subtoken>>)
    ensures r.None? <==> token.explanation.None?
    ensures r.Some? ==> |r.value| == |token.explanation.value| && WellIndexed(token, r.value)
    ensures r.Some? ==> forall i :: 0 <= i < |r.value| ==>
      r.value[i] == Subtoken(token.explanation.value[i].content, ScopeNames(token.explanation.value[i].scopes), i)
  {
    match token.explanation
    case None => None
    case Some(expl) =>
      Some(seq(|expl|, i requires 0 <= i < |expl| => Subtoken(expl[i].content, ScopeNames(expl[i].scopes), i)))
  }

  /** The subtokens of a token cover exactly the text of its explanations. */
  lemma {:induction false} SubtokensCoverExplanations(token: Token)
    requires token.explanation.Some?
    ensures Text(GetExplainedSubtokens(token).value) == ExplainedText(token.explanation.value)
  {
    SubtokenPrefixText(token, |token.explanation.value|);
    assert GetExplainedSubtokens(token).value[..|token.explanation.value|] == GetExplainedSubtokens(token).value;
    assert token.explanation.value[..|token.explanation.value|] == token.explanation.value;
  }

  lemma {:induction false} SubtokenPrefixText(token: Token, n: nat)
    requires token.explanation.Some? && n <= |token.explanation.value|
    ensures Text(GetExplainedSubtokens(token).value[..n]) == ExplainedText(token.explanation.value[..n])
  {
    var subs := GetExplainedSubtokens(token).value;
    var expl := token.explanation.value;
    if n > 0 {
      SubtokenPrefixText(token, n - 1);
      assert subs[..n][..n - 1] == subs[..n - 1];
      assert expl[..n][..n - 1] == expl[..n - 1];
    }
  }

  /** The summed lengths of the first `n` explanations: JavaScript's
      `slice(0, n).reduce(...)`, which clamps `n` to the list length. */
  function PrefixLength(expl: seq<Explanation>, n: nat): (len: nat)
    ensures n <= |expl| ==> len == |ExplainedText(expl[..n])|
  {
    if n == 0 || |expl| == 0 then 0
    else if n > |expl| then PrefixLength(expl, |expl|)
    else
      assert expl[..n][..n - 1] == expl[..n - 1];
      PrefixLength(expl, n - 1) + |expl[n - 1].content|
  }

  /** JavaScript's falsy font style of a theme rule (missing or 0) becomes 0. */
  function StyleOrNone(fontStyle: Option<int>): int {
    if fontStyle.None? then 0 else fontStyle.value
  }

  /** A new token for the explained subtoken `st` of `token`: it keeps `st`'s text and
      starts where `st`'s explanation starts. When `newScope` is given and the token is
      explained, the explanation gains the scope `<name>.sema`, and the last theme rule
      that matches `name` under `st`'s scopes, if any, restyles the token. */
  function CreateNewThemedToken(token: Token, st: Subtoken, newScope: Option<NewScope>): (r: Token)
    requires token.explanation.Some? ==> st.index < |token.explanation.value|
    ensures r.content == st.content
    ensures token.explanation.None? ==> r == token.(content := st.content)
    ensures token.explanation.Some? ==>
      r.offset == token.offset + |ExplainedText(token.explanation.value[..st.index])|
    ensures newScope.None? ==> r.color == token.color && r.fontStyle == token.fontStyle
    ensures token.explanation.Some? && newScope.None? ==>
      r.explanation == Some([token.explanation.value[st.index]])
    ensures token.explanation.Some? && newScope.Some? ==>
      var e := token.explanation.value[st.index];
      var m := ExplainThemeScope(newScope.value.theme, newScope.value.name, st.scopes);
      && r.explanation == Some([e.(scopes := e.scopes + [ScopeEntry(newScope.value.name + ".sema", m)])])
      && (|m| == 0 ==> r.color == token.color && r.fontStyle == token.fontStyle)
      && (|m| > 0 ==> r.color == m[|m| - 1].foreground && r.fontStyle == StyleOrNone(m[|m| - 1].fontStyle))
  {
    match token.explanation
    case None => token.(content := st.content)
    case Some(expl) =>
      var plain := Token(st.content, token.offset + PrefixLength(expl, st.index), token.color, token.fontStyle, Some([expl[st.index]]));
      match newScope
      case None => plain
      case Some(ns) =>
        var m := ExplainThemeScope(ns.theme, ns.name, st.scopes);
        var e := expl[st.index];
        var t := plain.(explanation := Some([e.(scopes := e.scopes + [ScopeEntry(ns.name + ".sema", m)])]));
        if |m| > 0 then t.(color := m[|m| - 1].foreground, fontStyle := StyleOrNone(m[|m| - 1].fontStyle)) else t
  }

  /** A token given a semantic scope takes its colour and font style from the LAST theme
      rule that matches that scope under the subtoken's scopes, and keeps the token's own
      style when no rule matches. */
  lemma {:induction false} ThemedStyleIsLastMatchingRule(token: Token, st: Subtoken, ns: NewScope)
    requires token.explanation.Some? && st.index < |token.explanation.value|
    ensures (forall i :: 0 <= i < |ns.theme.settings| ==> !RuleMatches(ns.theme.settings[i], ns.name, st.scopes)) ==>
      CreateNewThemedToken(token, st, Some(ns)).color == token.color &&
      CreateNewThemedToken(token, st, Some(ns)).fontStyle == token.fontStyle
    ensures (exists i :: 0 <= i < |ns.theme.settings| && RuleMatches(ns.theme.settings[i], ns.name, st.scopes)) ==>
      exists i :: (0 <= i < |ns.theme.settings|
        && RuleMatches(ns.theme.settings[i], ns.name, st.scopes)
        && (forall j :: i < j < |ns.theme.settings| ==> !RuleMatches(ns.theme.settings[j], ns.name, st.scopes))
        && CreateNewThemedToken(token, st, Some(ns)).color == ns.theme.settings[i].foreground
        && CreateNewThemedToken(token, st, Some(ns)).fontStyle == StyleOrNone(ns.theme.settings[i].fontStyle))
  {
    var m := ExplainThemeScope(ns.theme, ns.name, st.scopes);
    var r := CreateNewThemedToken(token, st, Some(ns));
    NothingExplainedIffNoMatch(ns.theme, ns.name, st.scopes);
    if |m| > 0 {
      LastExplainedIsLastMatching(ns.theme, ns.name, st.scopes);
      var i :| 0 <= i < |ns.theme.settings| && m[|m| - 1] == ns.theme.settings[i]
        && RuleMatches(ns.theme.settings[i], ns.name, st.scopes)
        && forall j :: i < j < |ns.theme.settings| ==> !RuleMatches(ns.theme.settings[j], ns.name, st.scopes);
      assert r.color == ns.theme.settings[i].foreground;
      assert r.fontStyle == StyleOrNone(ns.theme.settings[i].fontStyle);
    }
  }

  /** Split the subtoken at `pos` after its first `splitIndex` characters: the right part
      goes in right after it with the same explanation index and scopes. Nothing changes
      when the right part would be empty. */
  function SplitTokenAtIndex(subs: seq<Subtoken>, pos: nat, splitIndex: int): (r: seq<Subtoken>)
    requires pos < |subs|
    ensures |r| >= |subs| && r[pos].scopes == subs[pos].scopes
    ensures SubstringFrom(subs[pos].content, splitIndex) == "" ==> r == subs
    ensures SubstringFrom(subs[pos].content, splitIndex) != "" ==>
      && |r| == |subs| + 1
      && r[..pos] == subs[..pos] && r[pos + 2..] == subs[pos + 1..]
      && r[pos] == subs[pos].(content := SubstringTo(subs[pos].content, splitIndex))
      && r[pos + 1] == subs[pos].(content := SubstringFrom(subs[pos].content, splitIndex))
  {
    var c := subs[pos].content;
    var right := SubstringFrom(c, splitIndex);
    if right == "" then subs
    else subs[..pos] + [subs[pos].(content := SubstringTo(c, splitIndex)), subs[pos].(content := right)] + subs[pos + 1..]
  }

  /** Splitting a subtoken never changes the text the subtokens cover. */
  lemma SplitKeepsText(subs: seq<Subtoken>, pos: nat, splitIndex: int)
    requires pos < |subs|
    ensures Text(SplitTokenAtIndex(subs, pos, splitIndex)) == Text(subs)
  {
    var c := subs[pos].content;
    if SubstringFrom(c, splitIndex) != "" {
      var a := subs[pos].(content := SubstringTo(c, splitIndex));
      var b := subs[pos].(content := SubstringFrom(c, splitIndex));
      var pre := subs[..pos];
      var post := subs[pos + 1..];
      calc {
        Text(SplitTokenAtIndex(subs, pos, splitIndex));
        Text(pre + [a, b] + post);
        { TextSplice(pre, [a, b], post); }
        Text(pre) + Text([a, b]) + Text(post);
        { TextOfPair(a, b); SubstringHalves(c, splitIndex); TextOfPair(subs[pos], subs[pos]); }
        Text(pre) + Text([subs[pos]]) + Text(post);
        { TextSplice(pre, [subs[pos]], post); }
        Text(pre + [subs[pos]] + post);
        { Reassemble(subs, pos); }
        Text(subs);
      }
    }
  }

  /** A list is the part before `pos`, the element at `pos` and the part after it. */
  lemma Reassemble(subs: seq<Subtoken>, pos: nat)
    requires pos < |subs|
    ensures subs[..pos] + [subs[pos]] + subs[pos + 1..] == subs
  {
  }

  /** The text of one or two subtokens. */
  lemma TextOfPair(a: Subtoken, b: Subtoken)
    ensures Text([a]) == a.content
    ensures Text([a, b]) == a.content + b.content
  {
    assert [a, b][..1] == [a];
    assert [a][..0] == [];
  }

  /** The text of three consecutive pieces of a list. */
  lemma TextSplice(pre: seq<Subtoken>, mid: seq<Subtoken>, post: seq<Subtoken>)
    ensures Text(pre + mid + post) == Text(pre) + Text(mid) + Text(post)
  {
    TextAppend(pre + mid, post);
    TextAppend(pre, mid);
  }

  /** Whether or not a split happens, the subtoken at `pos` ends up holding the first
      `splitIndex` characters of its text. */
  lemma SplitLeftPiece(subs: seq<Subtoken>, pos: nat, splitIndex: nat)
    requires pos < |subs| && splitIndex <= |subs[pos].content|
    ensures |SplitTokenAtIndex(subs, pos, splitIndex)| > pos
    ensures SplitTokenAtIndex(subs, pos, splitIndex)[pos].content == subs[pos].content[..splitIndex]
  {
    var c := subs[pos].content;
    if SubstringFrom(c, splitIndex) == "" {
      assert splitIndex == |c| && c[..splitIndex] == c;
    }
  }

  /** Splitting keeps every subtoken's explanation index. */
  lemma SplitKeepsIndices(owner: Token, subs: seq<Subtoken>, pos: nat, splitIndex: int)
    requires pos < |subs| && WellIndexed(owner, subs)
    ensures WellIndexed(owner, SplitTokenAtIndex(subs, pos, splitIndex))
  {
  }

  /** The two pieces of a split subtoken are rebuilt with the same offset, because both
      keep the index of the explanation they were cut from. */
  lemma SplitPiecesShareOffset(owner: Token, subs: seq<Subtoken>, pos: nat, splitIndex: int)
    requires pos < |subs| && WellIndexed(owner, subs) && owner.explanation.Some?
    requires SubstringFrom(subs[pos].content, splitIndex) != ""
    ensures
      var r := SplitTokenAtIndex(subs, pos, splitIndex);
      CreateNewThemedToken(owner, r[pos], None).offset == CreateNewThemedToken(owner, r[pos + 1], None).offset
  {
  }

  /** The subtokens `subs[from..to)` rebuilt as plain tokens of `owner`. */
  function RebuildRange(owner: Token, subs: seq<Subtoken>, from: nat, to: nat): (r: seq<Token>)
    requires to <= |subs| && WellIndexed(owner, subs)
    ensures |r| == if from < to then to - from else 0
    ensures forall k :: 0 <= k < |r| ==> (r[k] == CreateNewThemedToken(owner, subs[from + k], None))
    decreases if from < to then to - from else 0
  {
    if from >= to then [] else [CreateNewThemedToken(owner, subs[from], None)] + RebuildRange(owner, subs, from + 1, to)
  }

  /** Append `token` for the subtoken at `index`, first appending, rebuilt and unmodified,
      every subtoken between the end of what was emitted and `index`. */
  function PushNewToken(owner: Token, newTokens: seq<Token>, token: Token, index: nat, subs: seq<Subtoken>): (r: seq<Token>)
    requires index < |subs| && WellIndexed(owner, subs)
    ensures |r| > |newTokens| && r[..|newTokens|] == newTokens
    ensures r[|r| - 1] == token
    ensures |newTokens| <= index ==> |r| == index + 1
    ensures |newTokens| > index ==> |r| == |newTokens| + 1
    ensures forall k :: |newTokens| <= k < index ==> r[k] == CreateNewThemedToken(owner, subs[k], None)
  {
    newTokens + RebuildRange(owner, subs, |newTokens|, index) + [token]
  }

  /** `t` is built from the explanation `i` of `owner`: it starts where that explanation
      starts and carries that explanation's text and scopes, possibly with scopes added. */
  predicate FromExplanationAt(owner: Token, t: Token, i: nat)
    requires owner.explanation.Some? && i < |owner.explanation.value|
  {
    var e := owner.explanation.value[i];
    && t.offset == owner.offset + |ExplainedText(owner.explanation.value[..i])|
    && t.explanation.Some? && |t.explanation.value| == 1
    && t.explanation.value[0].content == e.content
    && |e.scopes| <= |t.explanation.value[0].scopes|
    && t.explanation.value[0].scopes[..|e.scopes|] == e.scopes
  }

  /** `t` is built from one of the explanations of `owner`. */
  predicate FromExplanation(owner: Token, t: Token) {
    owner.explanation.Some? &&
    exists i: nat :: i < |owner.explanation.value| && FromExplanationAt(owner, t, i)
  }

  /** Every token of `out` is built from one of the explanations of `owner`. */
  predicate AllFromExplanations(owner: Token, out: seq<Token>) {
    forall k :: 0 <= k < |out| ==> FromExplanation(owner, out[k])
  }

  /** Whatever scope is added, a rebuilt token comes from its subtoken's explanation. */
  lemma ThemedTokenFromExplanation(owner: Token, st: Subtoken, ns: Option<NewScope>)
    requires owner.explanation.Some? && st.index < |owner.explanation.value|
    ensures FromExplanationAt(owner, CreateNewThemedToken(owner, st, ns), st.index)
    ensures FromExplanation(owner, CreateNewThemedToken(owner, st, ns))
  {
    var t := CreateNewThemedToken(owner, st, ns);
    var e := owner.explanation.value[st.index];
    assert t.explanation.value[0].scopes[..|e.scopes|] == e.scopes;
    assert FromExplanationAt(owner, t, st.index);
  }

  /** Pushing a token built from an explanation keeps every emitted token built from one,
      the back-filled ones included. */
  lemma PushNewTokenFromExplanations(owner: Token, newTokens: seq<Token>, token: Token, index: nat, subs: seq<Subtoken>)
    requires index < |subs| && WellIndexed(owner, subs) && owner.explanation.Some?
    requires FromExplanation(owner, token)
    ensures AllFromExplanations(owner, newTokens) ==> AllFromExplanations(owner, PushNewToken(owner, newTokens, token, index, subs))
  {
    var r := PushNewToken(owner, newTokens, token, index, subs);
    if AllFromExplanations(owner, newTokens) {
      forall k | 0 <= k < |r|
        ensures FromExplanation(owner, r[k])
      {
        if k < |newTokens| {
          assert r[k] == newTokens[k];
        } else if k < |r| - 1 {
          ThemedTokenFromExplanation(owner, subs[k], None);
        }
      }
    }
  }
}
